=== FILE: README.md ===
# GitHub-activity ingestion, code analysis and dashboards — a Dafny model

This project models the decision logic of a mentorship and learning-analytics
application. It follows GitHub activity into a relational store, grades commits
with an AI gateway and serves student and teacher dashboards. It covers five
serverless handlers and the heatmap's colour scale:

- **analyze-code** (`Analysis`) loads an assignment's requirements and records
  an analysis in `processing` state. It classifies a failing gateway status,
  computes the overall grade from the returned verdicts and marks the analysis
  `completed`.
- **github-webhook** (`Webhook`) receives push, pull_request and issues
  deliveries for a registered repository. It stores commit and event
  activities, stamps `last_synced_at` and decides whether to request an
  analysis of the latest commit.
- **sync-github-data** (`Sync`) and **fetch-github-data** (`Fetch`) pull the
  GitHub user, repositories, commits and pull requests. They mirror the profile
  and reconcile everything into the store with upserts keyed on
  `github_repo_id`, `commit_sha` and `github_event_id`.
- **dashboard-data** (`Dashboard`) dispatches on the requested type and the
  caller's role. It computes the student view (30-day window, commit count,
  distinct-day streak, recent analyses) and the teacher's per-batch health
  metrics.
- **CommitHeatmap** (`Heatmap`) buckets a day's commit count into one of five
  legend classes.

Shared modules:

- `Schema` holds the store and its rows. The enumerations come from the
  generated database types (activity type, analysis status, user role,
  assignment status).
- `Keyed` is the generic insert-or-update on a conflict key, with its
  idempotence theory.
- `GitHub` holds the GitHub replies.
- `Text` holds decimal rendering of numbers.
- `Wrappers` holds `Option`.

The store is a set of maps keyed by the columns the code upserts on:

- Repositories are keyed by the provider id. `RepoRef` wraps that id and also
  serves as the row's identity, because the row's own uuid is random and kept
  on conflict.
- Activities are keyed by commit SHA, by event id, or by a fresh row number
  for rows that have neither.
- Analyses form a sequence, and an analysis id is its position.

Every outbound request (GitHub, the AI gateway, the store's error replies) is
an input value. The current time is a parameter. A store error that a
function throws is a `StoreFailure`: its message, and whether it is an `Error`
instance. The store client's version is not pinned, so the second part is an
input. The catch blocks report the message only for an `Error` instance.

## Model

| member | source | states |
|---|---|---|
| Heatmap.ColorIntensity | src/components/dashboard/CommitHeatmap.tsx:23-29 | every count gets exactly one legend class, and it is the class of the count's level on the reference scale of thresholds (non-zero, >2, >5, >8) |
| Heatmap.IntensityMonotone | src/components/dashboard/CommitHeatmap.tsx:23-29 | for non-negative counts, more commits never give a lighter class |
| Heatmap.IntensityBuckets | src/components/dashboard/CommitHeatmap.tsx:24-28 | the five buckets 0, 1–2, 3–5, 6–8, ≥9; a negative count lands in the 1–2 bucket |
| Analysis.MetCountIsMultiplicity | supabase/functions/analyze-code/index.ts:119-120 | the met count equals the multiplicity of "met" among the verdict statuses |
| Analysis.MetCount | supabase/functions/analyze-code/index.ts:119-120 | the met count never exceeds the number of verdicts |
| Analysis.LoadRequirements | supabase/functions/analyze-code/index.ts:34-45 | no assignment id or an unknown assignment gives no requirements; a found assignment gives its requirements, none when missing |
| Analysis.OverallGrade | supabase/functions/analyze-code/index.ts:119-123 | with requirements, the grade is (number of "met" verdicts / number of requirements) × 100; without, it is the model's quality score |
| Analysis.NoPartialCredit | supabase/functions/analyze-code/index.ts:120 | replacing a non-"met" verdict with another non-"met" verdict leaves the grade unchanged |
| Analysis.GradeBounds | supabase/functions/analyze-code/index.ts:119-122 | with requirements the grade is never negative, and it is at most 100 if and only if the "met" count is at most the requirement count |
| Analysis.GradeCanExceedHundred | supabase/functions/analyze-code/index.ts:119-122 | two "met" verdicts against one requirement grade 200 |
| Analysis.GradeFallsBackToQualityScore | supabase/functions/analyze-code/index.ts:34-45 | with no assignment id, an unknown assignment or empty requirements, the grade is the quality score |
| Analysis.ClassifyAiStatus | supabase/functions/analyze-code/index.ts:105-113 | 429 is rate limiting, 402 is exhausted credits, any other failing status is a generic failure carrying the status |
| Analysis.AiErrorMessagesDistinguishStatuses | supabase/functions/analyze-code/index.ts:105-113 | two failing statuses give the same message exactly when they are equal |
| Analysis.ErrorMessage | supabase/functions/analyze-code/index.ts:105-153 | a store error keeps its message when it is an `Error` instance and otherwise reads "Unknown error occurred"; a generic gateway failure reads "AI analysis failed: " followed by decimal digits that parse back to the status |
| Analysis.ProcessingRow | supabase/functions/analyze-code/index.ts:47-57 | the inserted row is `processing`, for the request's repository, assignment and commit, with no grade and no analysis time |
| Analysis.CompletedRow | supabase/functions/analyze-code/index.ts:125-138 | the updated row is `completed`, keeps the request's identity, and carries the grade formula's result, the analysis time and the model's verdicts, topics (default empty), suggestions (default empty), feedback and quality score |
| Analysis.Analyze | supabase/functions/analyze-code/index.ts:25-157 | only analyses are written, at most one row is appended and earlier rows are kept; an unknown repository or a failed insert answers 500 with the store error's caught message (its own message only for an `Error` instance) and writes nothing; a row is appended iff the repository is found and the insert succeeds; a missing key and a failing gateway status answer 500 with their messages and leave the `processing` row; success iff repository found, insert ok, key configured and gateway OK, and then the appended row is the `completed` row for the assignment's requirements and the model's answer, under the reported id |
| Analysis.AnalyzeReportsGrade | supabase/functions/analyze-code/index.ts:118-146 | the reported grade is the grade formula over the assignment's requirements and the returned verdicts |
| Analysis.RateLimitLeavesProcessing | supabase/functions/analyze-code/index.ts:105-107 | a 429 answers 500 with the rate-limit message and leaves the row `processing` |
| Webhook.Handle | supabase/functions/github-webhook/index.ts:31-140 | unregistered iff the repository id is unknown, and then nothing changes; unknown events write nothing; a push's activity table is exactly the commit inserts of its payload applied to the old one (so only pushed SHAs are added and every old row is kept); an analysis is requested iff push, assignment set and commits non-empty, for the last commit; a push stamps `last_synced_at`, others leave repositories alone; the reply is a 500 failure iff an analysis was requested and that request failed, carrying its error |
| Webhook.InsertCommits | supabase/functions/github-webhook/index.ts:48-60 | after the push every commit SHA has a row and rows stored before are kept |
| Webhook.InsertCommitsFirstWins | supabase/functions/github-webhook/index.ts:51-59 | a SHA not stored before holds the push's first commit with that SHA |
| Webhook.InsertCommitsPresent | supabase/functions/github-webhook/index.ts:51-59 | inserting commits whose SHAs are all stored changes nothing |
| Webhook.InsertCommitsCount | supabase/functions/github-webhook/index.ts:51-59 | commits with distinct, new SHAs add exactly one row each |
| Webhook.HandlePreservesValid | supabase/functions/github-webhook/index.ts:45-123 | every delivery keeps each activity row filed under its own dedup key |
| Webhook.PushRecordsCommits | supabase/functions/github-webhook/index.ts:47-60 | each pushed SHA has a row afterwards: the old one if stored before, else the first pushed commit with that SHA |
| Webhook.PushReplayAddsNoCommits | supabase/functions/github-webhook/index.ts:47-85 | redelivering a push, at any later time, adds and changes no activity row, registers no repository and requests the same analysis; redelivered at the same instant it leaves the store as the first delivery left it |
| Webhook.EventAddsOneRow | supabase/functions/github-webhook/index.ts:91-123 | pull_request and issues add exactly one row and keep every other; the new row is the repository owner's, points at the repository, has the matching kind, the payload's action, number and title, and the receipt time; a replay adds a second |
| Webhook.SignatureIgnored | supabase/functions/github-webhook/index.ts:16-24 | the signature header has no influence on the outcome |
| Webhook.ReplyStatus | supabase/functions/github-webhook/index.ts:38-140 | an unregistered repository and a processed delivery answer 200; a failure answers 500 |
| Webhook.EventActivity | supabase/functions/github-webhook/index.ts:91-119 | a pull_request or issues row is the owner's, points at the repository, has the given kind, metadata and receipt time, and has no dedup column |
| Webhook.InsertUnkeyed | supabase/functions/github-webhook/index.ts:92-102 | a plain insert takes the next row number; in a valid store it adds exactly that row, keeps every other row and keeps the store valid |
| Sync.RepoCommits | supabase/functions/sync-github-data/index.ts:56-74 | a thrown or non-OK commit request contributes nothing; an OK one contributes its commits in order, tagged with the repository name |
| Sync.CollectCommits | supabase/functions/sync-github-data/index.ts:54-75 | every collected commit names a repository whose commit request answered with a success status |
| Sync.CollectCommitsAppend | supabase/functions/sync-github-data/index.ts:54-75 | collection over a concatenation of repository lists is the concatenation of the collections |
| Sync.FailedRepoContributesNothing | supabase/functions/sync-github-data/index.ts:56-74 | a failing repository drops out without disturbing the commits of the others |
| Sync.TwoReposOneFailing | supabase/functions/sync-github-data/index.ts:56-74 | with the second repository answering 404, exactly the first one's commits are collected |
| Sync.SyncRepoWrites | supabase/functions/sync-github-data/index.ts:102-123 | every repository the store accepts gets an upsert for the student stamped now; a rejected one is skipped; no default branch is supplied |
| Sync.SyncCommitWrites | supabase/functions/sync-github-data/index.ts:126-152 | a write is produced for every stored commit whose repository lookup succeeds, filed under the row found, with the commit's SHA, message and date and no metadata; every write is such a commit's |
| Sync.SyncCommitWritesSameLookup | supabase/functions/sync-github-data/index.ts:128-135 | the commit writes depend on the repository table only through the lookup by owner and name |
| Sync.StoredCommits | supabase/functions/sync-github-data/index.ts:126 | the stored commits are the first min(50, n) fetched ones |
| Sync.Sync | supabase/functions/sync-github-data/index.ts:20-172 | missing parameters and a failed user request fail with the store unchanged; a profile error fails with its caught message (its own message only for an `Error` instance) and writes nothing; success iff parameters present, user OK and no profile error; the reported counts are repos.length, all fetched commits and total_count |
| Sync.SyncAddsAtMostFiftyRows | supabase/functions/sync-github-data/index.ts:126-152 | a run adds at most 50 activity rows and no more than it reports |
| Sync.SyncStoresFoundCommits | supabase/functions/sync-github-data/index.ts:126-148 | after a run, every stored commit whose repository the lookup by name finds has a row under its SHA |
| Sync.CommitsSyncedCanExceedStored | supabase/functions/sync-github-data/index.ts:126-161 | with more than 50 fetched commits, commits_synced exceeds the rows added |
| Sync.SyncStoresRepos | supabase/functions/sync-github-data/index.ts:102-118 | every accepted repository has a row under its provider id, owned by the student, synced now |
| Sync.SyncRepoWritesRestamped | supabase/functions/sync-github-data/index.ts:102-118 | the repository writes of a later run differ from the first run's only in their timestamp |
| Sync.ReplayedRepoWritesKeepNames | supabase/functions/sync-github-data/index.ts:102-118 | a later run's repository writes keep every row's owner and name in a table the first run already settled |
| Sync.SyncWritesReplayed | supabase/functions/sync-github-data/index.ts:102-152 | applying a sync's writes again, at any later time, changes no activity row and no repository id, and at the same time changes nothing |
| Sync.SyncIdempotent | supabase/functions/sync-github-data/index.ts:102-152 | replaying a sync with the same replies, at any later time, changes no activity row and no repository id; at the same time it changes nothing at all |
| Sync.SyncPreservesValid | supabase/functions/sync-github-data/index.ts:126-152 | a sync keeps the store invariant |
| Fetch.HttpStatus | supabase/functions/fetch-github-data/index.ts:199-207 | every error answers 400, success 200 |
| Fetch.GatherCommits | supabase/functions/fetch-github-data/index.ts:74-92 | gathering succeeds iff no request throws; then each repository gets its OK reply's commits or an empty list, in order |
| Fetch.TotalCommits | supabase/functions/fetch-github-data/index.ts:190 | each gathered list's length is at most the total, and the total is 0 iff every list is empty |
| Fetch.FetchRepoWrite | supabase/functions/fetch-github-data/index.ts:119-131 | the repository upsert is keyed on the provider id and the default branch is "main" when GitHub gives none |
| Fetch.CommitUpsert | supabase/functions/fetch-github-data/index.ts:144-160 | a commit write is keyed on the SHA, filed under the given row, for the user, at the author date, with author and stats metadata |
| Fetch.RepoCommitUpserts | supabase/functions/fetch-github-data/index.ts:144-161 | one repository's commit writes are exactly its commits' upserts, in order |
| Fetch.FetchCommitWrites | supabase/functions/fetch-github-data/index.ts:134-163 | a write is produced for every commit of every repository whose lookup by name succeeds, filed under the row found, with author/stats metadata; every write is such a commit's; at most the gathered commits are written |
| Fetch.FetchCommitWritesSameLookup | supabase/functions/fetch-github-data/index.ts:135-143 | the commit writes depend on the repository table only through the lookup by owner and name |
| Fetch.PrUpsert | supabase/functions/fetch-github-data/index.ts:166-181 | a pull-request write is for the user, at the update time, with title, state and URL metadata, keyed on a decimal string that parses back to the provider id |
| Fetch.PrWrites | supabase/functions/fetch-github-data/index.ts:165-182 | one upsert per search item, none when `items` is missing |
| Fetch.PrKeysDistinguishIds | supabase/functions/fetch-github-data/index.ts:172 | two pull requests share an event-id key iff they have the same provider id |
| Fetch.Fetch | supabase/functions/fetch-github-data/index.ts:27-207 | no user → "Unauthorized", no token → "GitHub token not found", failed user request → "GitHub API error: …", all with the store unchanged; success iff every check passes and no commit request throws; reports repos.length, the sum of gathered commits and total_count or 0 |
| Fetch.ReportedCommitsAreOkReplies | supabase/functions/fetch-github-data/index.ts:85-90 | the reported commit count is the number of commits in the OK replies |
| Fetch.NewCommitRowsBound | supabase/functions/fetch-github-data/index.ts:134-182 | commit upserts followed by pull-request upserts add no more commit rows than there are commit upserts |
| Fetch.FetchStoresAtMostReported | supabase/functions/fetch-github-data/index.ts:134-190 | the commit rows that are new after a run number at most the commits it reports |
| Fetch.FetchStoresFoundCommits | supabase/functions/fetch-github-data/index.ts:134-161 | after a run, every gathered commit of a repository whose lookup by name succeeds has a row under its SHA |
| Fetch.FetchStoresRepos | supabase/functions/fetch-github-data/index.ts:119-131 | every listed repository has a row under its provider id, owned by the user, with a default branch |
| Fetch.FetchWritesStoreRepo | supabase/functions/fetch-github-data/index.ts:118-132 | a run's writes leave a row for every listed repository, owned by the user, with a default branch |
| Fetch.FetchStoresPullRequests | supabase/functions/fetch-github-data/index.ts:166-182 | every searched pull request has a row under its id rendered in decimal |
| Fetch.ReplayedRepoWritesKeepNames | supabase/functions/fetch-github-data/index.ts:119-131 | a later run's repository writes keep every row's owner and name in a table the first run already settled |
| Fetch.ReplayedActivityWrites | supabase/functions/fetch-github-data/index.ts:134-182 | applying the same commit and pull-request upserts again leaves the activity table as the first application left it |
| Fetch.FetchWritesReplayed | supabase/functions/fetch-github-data/index.ts:107-182 | applying a run's writes again, at any later time, changes no activity row and no repository id, and at the same time changes nothing |
| Fetch.FetchIdempotent | supabase/functions/fetch-github-data/index.ts:107-182 | replaying a run with the same replies, at any later time, changes no activity row and no repository id; at the same time it changes nothing at all |
| Fetch.FetchPreservesValid | supabase/functions/fetch-github-data/index.ts:134-182 | a run keeps the store invariant |
| Dashboard.ErrorStatus | supabase/functions/dashboard-data/index.ts:156 | the status is 401 exactly for "Unauthorized", otherwise 500 |
| Dashboard.Window | supabase/functions/dashboard-data/index.ts:41-50 | an activity is in the window iff it is the user's and at most 30 days old |
| Dashboard.CommitCount | supabase/functions/dashboard-data/index.ts:73 | the commit count is at most the number of activities |
| Dashboard.CommitCountIsMultiplicity | supabase/functions/dashboard-data/index.ts:73 | totalCommits is the multiplicity of `commit` among the activity kinds |
| Dashboard.Days | supabase/functions/dashboard-data/index.ts:66-67 | a day is in the set iff some activity falls on it |
| Dashboard.StreakAtMostActivities | supabase/functions/dashboard-data/index.ts:66-75 | the streak is at most the number of activities |
| Dashboard.StreakIsNotConsecutive | supabase/functions/dashboard-data/index.ts:66-75 | activity on two days five days apart gives a streak of 2 |
| Dashboard.Flatten | supabase/functions/dashboard-data/index.ts:76 | an analysis is in the flattened list iff it belongs to a listed repository |
| Dashboard.Recent | supabase/functions/dashboard-data/index.ts:76 | recentAnalyses is the first min(3, n) flattened analyses |
| Dashboard.OwnRepos | supabase/functions/dashboard-data/index.ts:53-63 | a repository is listed iff it is the user's |
| Dashboard.ActiveStudents | supabase/functions/dashboard-data/index.ts:116-124 | a student is counted active iff some activity is at most 3 days old |
| Dashboard.ActivePartition | supabase/functions/dashboard-data/index.ts:134-137 | active and inactive students add up to the batch size |
| Dashboard.MetricsOf | supabase/functions/dashboard-data/index.ts:114-138 | the metrics carry the batch's id, name and size; activeStudents is the number of active students and needsAttention the number of inactive ones, which add up to the size; averageGrade is the batch average of first-analysis grades, 0 for an empty batch |
| Dashboard.FirstGrade | supabase/functions/dashboard-data/index.ts:126-129 | a student without repositories contributes 0; a non-zero contribution is the grade of the first analysis of the first repository |
| Dashboard.GradeSum | supabase/functions/dashboard-data/index.ts:126-129 | the sum is 0 when every contribution is 0 and non-negative when every contribution is |
| Dashboard.Average | supabase/functions/dashboard-data/index.ts:126-129 | an empty batch averages 0; otherwise the average times the batch size is the sum of the contributions |
| Dashboard.AverageBounds | supabase/functions/dashboard-data/index.ts:126-129 | with every first-analysis grade in [0, 100], the average is too |
| Dashboard.UngradedStudentsLowerAverage | supabase/functions/dashboard-data/index.ts:126-129 | a student without analyses counts as 0: grades 80 and none average 40 |
| Dashboard.TeacherBatches | supabase/functions/dashboard-data/index.ts:86-111 | a batch is listed iff it is the caller's and active |
| Dashboard.Dashboard | supabase/functions/dashboard-data/index.ts:27-158 | no session gives 401 "Unauthorized"; the student view is served iff the type is "student", for any role; the teacher view iff the type is "teacher" and the role is teacher; otherwise 500 "Invalid dashboard type"; the student view holds the 30-day window and the user's repositories, its commit count, distinct-day streak and first three analyses are computed from them; the teacher view lists the caller's active batches, each with its metrics |
| Schema.ApplyRepoWrite | supabase/functions/fetch-github-data/index.ts:119-131 | an upsert overwrites the supplied columns and keeps assignment and active flag; a new row is active with no assignment |
| Schema.RepoWritesAbsorbing | supabase/functions/sync-github-data/index.ts:102-118 | a later repository write to the same id overrides an earlier one |
| Schema.LookupRepo | supabase/functions/sync-github-data/index.ts:128-135 | the single-row lookup by name yields a repository iff exactly one of the student's rows has that name |
| Schema.LookupRepoSeesNames | supabase/functions/sync-github-data/index.ts:128-135 | two tables that agree on every row's owner and name answer every lookup by name alike |
| Schema.RestampedRepoWrites | supabase/functions/sync-github-data/index.ts:102-118 | repository writes that differ only in their timestamp target the same rows and write the same owner and name |
| Schema.ApplyCommitWrite | supabase/functions/fetch-github-data/index.ts:144-160 | the row under a SHA is a commit activity carrying that SHA and the write's columns |
| Schema.CommitWritesAbsorbing | supabase/functions/sync-github-data/index.ts:136-147 | a later commit write to the same SHA overrides an earlier one |
| Schema.ApplyEventWrite | supabase/functions/fetch-github-data/index.ts:166-181 | the row under an event id is a pull-request activity carrying that id, time and metadata |
| Schema.EventWritesAbsorbing | supabase/functions/fetch-github-data/index.ts:166-181 | a later pull-request write to the same id overrides an earlier one |
| Schema.DedupKeysUnique | supabase/functions/sync-github-data/index.ts:145-147 | in a valid store no two activity rows share a SHA or an event id |
| Schema.RowKeyFresh | supabase/functions/github-webhook/index.ts:92-102 | a plain insert always gets a fresh row |
| Schema.CommitWritesPreserveValid | supabase/functions/sync-github-data/index.ts:136-147 | commit upserts keep the store invariant |
| Schema.EventWritesPreserveValid | supabase/functions/fetch-github-data/index.ts:166-181 | pull-request upserts keep the store invariant |
| Schema.CommitAndEventKeysDisjoint | supabase/functions/fetch-github-data/index.ts:134-182 | commit upserts and pull-request upserts never touch the same row |
| Keyed.Upsert | supabase/functions/sync-github-data/index.ts:103-118 | one upsert adds its key, rewrites that row from the prior one and leaves the others |
| Keyed.UpsertAll | supabase/functions/sync-github-data/index.ts:103-118 | a batch keeps every existing key and adds the key of every write |
| Keyed.KeysOf | supabase/functions/sync-github-data/index.ts:102-118 | the touched keys are exactly the keys of the writes |
| Keyed.LastIndex | supabase/functions/sync-github-data/index.ts:102-118 | the position of the last write to a key |
| Keyed.UpsertAllFrame | supabase/functions/sync-github-data/index.ts:102-118 | a batch adds exactly the touched keys and leaves untouched rows alone |
| Keyed.UpsertAllLastWins | supabase/functions/sync-github-data/index.ts:102-118 | the row under a touched key is the key's last write applied to some prior row |
| Keyed.UpsertAllSettles | supabase/functions/sync-github-data/index.ts:102-118 | after a batch every touched row is unchanged by its last write again |
| Keyed.UpsertAllPresent | supabase/functions/sync-github-data/index.ts:102-118 | when every touched key exists, each touched row becomes its last write applied to the old row |
| Keyed.UpsertAllFixedPoint | supabase/functions/sync-github-data/index.ts:102-118 | a batch does nothing to a table already settled with respect to it |
| Keyed.UpsertAllIdempotent | supabase/functions/sync-github-data/index.ts:102-118 | replaying a batch of upserts changes nothing: one row per conflict key |
| Keyed.SettledFrame | supabase/functions/fetch-github-data/index.ts:134-182 | upserts on other keys keep a settled table settled |
| Keyed.KeysOfBound | supabase/functions/sync-github-data/index.ts:126-152 | a batch touches at most as many keys as it has writes |
| Keyed.UpsertAllPreserves | supabase/functions/sync-github-data/index.ts:126-152 | a per-row property every write preserves holds of the whole table afterwards |
| Keyed.UpsertAllCongruent | supabase/functions/sync-github-data/index.ts:102-118 | batches with the same keys whose writes map related rows to related rows turn related tables into related tables |
| GitHub.CommitRepos | supabase/functions/sync-github-data/index.ts:55 | commits are requested for the first min(10, n) repositories, in listing order |
| Text.NatToString | supabase/functions/fetch-github-data/index.ts:172 | the decimal rendering is non-empty digits without a leading zero |
| Text.ParseNatToString | supabase/functions/fetch-github-data/index.ts:172 | parsing the decimal rendering gives the number back |
| Text.NatToStringInjective | supabase/functions/fetch-github-data/index.ts:172 | distinct numbers render differently |

## Left out

- HTTP, CORS and Deno plumbing, `OPTIONS` pre-flight answers, logging and response headers are not modelled.
- The AI prompt text and `JSON.parse` of the gateway's answer are not modelled. The parsed result is an input.
- Network failures of the gateway call and of GitHub calls other than the per-repository commit requests are not modelled. The webhook's analysis request is the exception, below.
- A `req.json()` failure is not modelled.
- Database engine internals are not modelled. An upsert is last-write-wins on the conflict key, and an update or insert error that the code ignores is taken as not raised, except where the code reacts to it.
- Ordering clauses (`sort=updated`, `order(...)`) are not modelled. Listings are given in the order the queries return them.
- The JSON bodies are assumed to have the expected shape. A repositories body that is not an array is not modelled.
- JavaScript numbers are modelled as unbounded `int` and `real`. `NaN` and rounding are not modelled.
- Dates are integer milliseconds, and "30 days ago" / "3 days ago" subtract whole days of 86 400 000 ms. Daylight-saving shifts of `setDate` are not modelled.
- `toDateString` is not modelled: it is a given day function of a timestamp.
- Repository row ids (uuid) are not modelled: a repository row is identified by its provider id, which is unique and is what every upsert conflicts on.
- The React pages, hooks, charts and mock data are not modelled, because they are presentation over fixed arrays. Neither is `generateHeatmapData`, because it is random.
- HMAC verification of webhook signatures is not modelled: the code never performs it.
- The `create` and `push` activity kinds, `pending` and `failed` analysis states, `admin` role and assignment states appear only as enumeration values; no handler produces them.
- Webhook.InsertCommits: a pushed commit whose SHA is already stored is taken as rejected by the unique index on `commit_sha`, so a replayed push adds no commit rows. The index is inferred from the `onConflict: 'commit_sha'` upserts in the sync and fetch handlers, which need it; without it a replayed push would duplicate commit rows. The handler ignores the insert's error. Pull-request and issue rows have no dedup column and do duplicate on replay.
- Webhook.Handle: the analysis request it sends on is returned as a value. Its network failure is an input, `callError`, that answers 500 after the writes. An HTTP error status from that request is ignored by the code, because `fetch` only rejects on a network failure.
- Schema.ApplyRepoWrite: a newly inserted repository row is taken as active with no assignment. These column defaults are not part of the generated types.
- Analysis.Analyze: the repository lookup error and the analysis insert error are given as environment inputs. The `students:student_id(github_username)` embed is only used in the prompt and is not modelled.
- Sync.Sync: the store's per-repository upsert errors are given as a set of rejected provider ids, and the profile update's error is an input. The sync writes a `profiles` table, which is a separate map here. It also writes repository columns `name`, `full_name`, `private`, `html_url` and `description` that the generated types do not list, and it sends neither `repo_name` nor `repo_url`, which those types require on insert. The model takes the sync's `name` and the fetch's `repo_name` to be one column, the field `repoName`, and likewise `html_url` and `repo_url` as `repoUrl`. So the sync's lookup by `name` and the fetch's lookup by `repo_name` read the same value. `full_name`, `private` and `description` are not modelled. Neither are `created_at` and `updated_at`, which the sync overwrites with GitHub's timestamps. `github_repo_id` is sent as a string and is modelled as the number it renders.
- Fetch.Fetch: `Promise.all` is modelled as a sequential pass in which the first thrown commit request, in list order, fails the run. A missing `Authorization` header, which throws inside the handler, is folded into "no user".
- Dashboard.Dashboard: the activity, repository and batch listings are inputs rather than queries over the store. A failed session lookup is folded into "no user". Batch and student embeds that are null are taken as empty lists.

=== FILE: analysis.dfy ===
/** The code-analysis function: it records an analysis in `processing` state,
    asks the AI gateway to grade the commit, and on success stores the graded
    result and marks the analysis `completed`. The gateway's reply is an input,
    already parsed. */
module Analysis {
  import opened Wrappers
  import opened Schema
  import Text

  datatype AnalyzeRequest = AnalyzeRequest(repositoryId: RepoRef, commitSha: string, assignmentId: Option<string>)

  /** The parsed JSON object the model returns; every key may be missing. */
  datatype AiResult = AiResult(
    requirementsMet: Option<seq<Verdict>>,
    topicCoverage: Option<map<string, real>>,
    codeQualityScore: Option<real>,
    feedback: Option<string>,
    suggestions: Option<seq<string>>)

  datatype AiReply = AiReply(status: nat, result: AiResult)

  /** What the environment answers: the store's error for a failed repository
      lookup, the store's error (if any) on inserting the analysis, whether the
      gateway key is configured, and the gateway's reply. */
  datatype AnalyzeEnv = AnalyzeEnv(
    repoLookupError: StoreFailure,
    insertError: Option<StoreFailure>,
    apiKeyConfigured: bool,
    ai: AiReply)

  datatype AnalyzeError =
    | StoreError(failure: StoreFailure)
    | ApiKeyMissing
    | RateLimited
    | CreditsExhausted
    | AiFailed(status: nat)

  const RateLimitMessage := "Rate limit exceeded. Please try again later."
  const CreditsMessage := "AI credits exhausted. " + "Please add credits to your workspace."
  const AiFailedPrefix := "AI analysis failed: "

  /** The message an error is reported with. A store error keeps its message
      only when it is an `Error` instance and reads "Unknown error occurred"
      otherwise; a generic gateway failure names the status, which can be read
      back from the message. */
  function ErrorMessage(e: AnalyzeError): (m: string)
    ensures e.StoreError? && e.failure.isError ==> m == e.failure.message
    ensures e.StoreError? && !e.failure.isError ==> m == UnknownErrorMessage
    ensures e.AiFailed? ==>
              |AiFailedPrefix| < |m| && m[..|AiFailedPrefix|] == AiFailedPrefix &&
              (forall i :: |AiFailedPrefix| <= i < |m| ==> Text.IsDigit(m[i])) &&
              Text.ParseNat(m[|AiFailedPrefix|..]) == e.status
  {
    match e
    case StoreError(f) => CaughtMessage(f)
    case ApiKeyMissing => "LOVABLE_API_KEY not configured"
    case RateLimited => RateLimitMessage
    case CreditsExhausted => CreditsMessage
    case AiFailed(status) =>
      var m := AiFailedPrefix + Text.NatToString(status);
      assert m[..|AiFailedPrefix|] == AiFailedPrefix && m[|AiFailedPrefix|..] == Text.NatToString(status);
      Text.ParseNatToString(status);
      m
  }

  datatype AnalyzeReply =
    | Analyzed(analysisId: nat, overallGrade: Option<real>, feedback: Option<string>)
    | AnalyzeFailed(httpStatus: nat, message: string)

  datatype AnalyzeResult = AnalyzeResult(reply: AnalyzeReply, store: Store)

  // ---------------------------------------------------------------- the grade

  /** Number of verdicts whose status is exactly "met". */
  function MetCount(vs: seq<Verdict>): (n: nat)
    ensures n <= |vs|
  {
    if vs == [] then 0 else (if vs[0].status == "met" then 1 else 0) + MetCount(vs[1..])
  }

  /** The statuses of the verdicts, in order. */
  function Statuses(vs: seq<Verdict>): (ss: seq<string>)
    ensures |ss| == |vs| && forall i :: 0 <= i < |vs| ==> ss[i] == vs[i].status
  {
    seq(|vs|, i requires 0 <= i < |vs| => vs[i].status)
  }

  /** The count agrees with the multiplicity of "met" among the statuses. */
  lemma {:induction false} MetCountIsMultiplicity(vs: seq<Verdict>)
    ensures MetCount(vs) == multiset(Statuses(vs))["met"]
  {
    if vs != [] {
      MetCountIsMultiplicity(vs[1..]);
      assert Statuses(vs) == [vs[0].status] + Statuses(vs[1..]);
    }
  }

  /** Requirements of the assignment, when an assignment id is given and found;
      a missing requirements value counts as none. */
  function LoadRequirements(assignmentId: Option<string>, assignments: map<string, Assignment>): (rs: seq<Requirement>)
    ensures !Truthy(assignmentId) ==> rs == []
    ensures Truthy(assignmentId) && assignmentId.value !in assignments ==> rs == []
    ensures Truthy(assignmentId) && assignmentId.value in assignments ==>
              rs == assignments[assignmentId.value].requirements.GetOr([])
  {
    if Truthy(assignmentId) && assignmentId.value in assignments
    then assignments[assignmentId.value].requirements.GetOr([])
    else []
  }

  /** The overall grade: with requirements, the share of returned verdicts that
      say "met", as a percentage of the number of requirements; without, the
      model's own quality score. */
  function OverallGrade(requirements: seq<Requirement>, result: AiResult): (g: Option<real>)
    ensures |requirements| == 0 ==> g == result.codeQualityScore
    ensures |requirements| > 0 ==>
              g == Some((multiset(Statuses(result.requirementsMet.GetOr([])))["met"] as real / |requirements| as real) * 100.0)
  {
    var verdicts := result.requirementsMet.GetOr([]);
    MetCountIsMultiplicity(verdicts);
    if |requirements| > 0
    then Some((MetCount(verdicts) as real / |requirements| as real) * 100.0)
    else result.codeQualityScore
  }

  /** No partial credit: turning a verdict that is not "met" into another verdict
      that is not "met" leaves the grade unchanged. */
  lemma NoPartialCredit(requirements: seq<Requirement>, vs: seq<Verdict>, i: nat, v: Verdict, result: AiResult)
    requires i < |vs| && vs[i].status != "met" && v.status != "met"
    ensures OverallGrade(requirements, result.(requirementsMet := Some(vs))) ==
            OverallGrade(requirements, result.(requirementsMet := Some(vs[i := v])))
  {
    MetCountIgnoresNonMet(vs, i, v);
    assert MetCount(vs) == MetCount(vs[i := v]);
  }

  lemma {:induction false} MetCountIgnoresNonMet(vs: seq<Verdict>, i: nat, v: Verdict)
    requires i < |vs| && vs[i].status != "met" && v.status != "met"
    ensures MetCount(vs[i := v]) == MetCount(vs)
  {
    if i > 0 {
      assert vs[i := v][1..] == vs[1..][i - 1 := v];
      MetCountIgnoresNonMet(vs[1..], i - 1, v);
    } else {
      assert vs[i := v][1..] == vs[1..];
    }
  }

  /** The grade is never negative, and it is at most 100 exactly when the model
      returns no more "met" verdicts than there are requirements. */
  lemma GradeBounds(requirements: seq<Requirement>, result: AiResult)
    requires |requirements| > 0
    ensures OverallGrade(requirements, result).Some?
    ensures 0.0 <= OverallGrade(requirements, result).value
    ensures OverallGrade(requirements, result).value <= 100.0 <==>
              MetCount(result.requirementsMet.GetOr([])) <= |requirements|
  {
    var m := MetCount(result.requirementsMet.GetOr([])) as real;
    var n := |requirements| as real;
    if m > n {
      assert m / n > 1.0;
    } else {
      assert m / n <= 1.0;
    }
  }

  /** Nothing ties the count to the requirements: two "met" verdicts against one
      requirement grade 200. */
  lemma GradeCanExceedHundred()
    ensures OverallGrade([Requirement("r")],
                         AiResult(Some([Verdict("r", "met", ""), Verdict("r", "met", "")]), None, None, None, None))
            == Some(200.0)
  {
    var vs := [Verdict("r", "met", ""), Verdict("r", "met", "")];
    assert MetCount(vs) == 2 by {
      assert vs[1..] == [Verdict("r", "met", "")];
    }
  }

  /** Without an assignment, with an unknown one, or with one that lists no
      requirements, the grade is the model's quality score. */
  lemma GradeFallsBackToQualityScore(assignmentId: Option<string>, assignments: map<string, Assignment>, result: AiResult)
    requires !Truthy(assignmentId) || assignmentId.value !in assignments ||
             assignments[assignmentId.value].requirements.GetOr([]) == []
    ensures OverallGrade(LoadRequirements(assignmentId, assignments), result) == result.codeQualityScore
  {
  }

  // ---------------------------------------------------------------- gateway errors

  /** A non-OK gateway status: 429 is tested first, then 402, and every other
      status is a generic failure that carries the status. */
  function ClassifyAiStatus(status: nat): (e: AnalyzeError)
    requires !HttpOk(status)
    ensures e.RateLimited? <==> status == 429
    ensures e.CreditsExhausted? <==> status == 402
    ensures e.AiFailed? <==> status != 429 && status != 402
    ensures e.AiFailed? ==> e.status == status
  {
    if status == 429 then RateLimited
    else if status == 402 then CreditsExhausted
    else AiFailed(status)
  }

  /** Distinct failing gateway statuses give distinct messages, so the message
      alone tells the caller which status the gateway answered. */
  lemma AiErrorMessagesDistinguishStatuses(a: nat, b: nat)
    requires !HttpOk(a) && !HttpOk(b)
    ensures ErrorMessage(ClassifyAiStatus(a)) == ErrorMessage(ClassifyAiStatus(b)) <==> a == b
  {
    var ea := ClassifyAiStatus(a);
    var eb := ClassifyAiStatus(b);
    var ma := ErrorMessage(ea);
    var mb := ErrorMessage(eb);
    if ma == mb {
      MessageShape(ea);
      MessageShape(eb);
      if ea.AiFailed? && eb.AiFailed? {
        var p := AiFailedPrefix;
        assert ma[|p|..] == Text.NatToString(a);
        assert mb[|p|..] == Text.NatToString(b);
        Text.NatToStringInjective(a, b);
      }
    }
  }

  /** The first and fourth characters of the gateway error messages. */
  lemma MessageShape(e: AnalyzeError)
    requires e.RateLimited? || e.CreditsExhausted? || e.AiFailed?
    ensures |ErrorMessage(e)| > 3
    ensures e.RateLimited? ==> ErrorMessage(e)[0] == 'R'
    ensures e.CreditsExhausted? ==> ErrorMessage(e)[0] == 'A' && ErrorMessage(e)[3] == 'c'
    ensures e.AiFailed? ==> ErrorMessage(e)[0] == 'A' && ErrorMessage(e)[3] == 'a'
  {
    match e
    case RateLimited =>
      assert RateLimitMessage[0] == 'R';
    case CreditsExhausted =>
      var head := "AI credits exhausted. ";
      assert head[0] == 'A' && head[3] == 'c';
      assert CreditsMessage[0] == head[0] && CreditsMessage[3] == head[3];
    case AiFailed(_) =>
      assert AiFailedPrefix[0] == 'A' && AiFailedPrefix[3] == 'a';
      assert ErrorMessage(e)[0] == AiFailedPrefix[0] && ErrorMessage(e)[3] == AiFailedPrefix[3];
  }

  // ---------------------------------------------------------------- the handler

  /** The row inserted before the gateway is called. */
  function ProcessingRow(req: AnalyzeRequest): (row: AnalysisRow)
    ensures row.status == Processing
    ensures row.repositoryId == req.repositoryId && row.assignmentId == req.assignmentId && row.commitSha == req.commitSha
    ensures row.overallGrade.None? && row.analyzedAt.None?
  {
    AnalysisRow(req.repositoryId, req.assignmentId, req.commitSha, Processing, None, [], map[], None, None, [], None)
  }

  /** The row after a successful analysis pass. */
  function CompletedRow(req: AnalyzeRequest, requirements: seq<Requirement>, result: AiResult, now: Time): (row: AnalysisRow)
    ensures row.status == AnalysisStatus.Completed
    ensures row.repositoryId == req.repositoryId && row.assignmentId == req.assignmentId && row.commitSha == req.commitSha
    ensures row.overallGrade == OverallGrade(requirements, result) && row.analyzedAt == Some(now)
    ensures row.requirementsMet == result.requirementsMet.GetOr([]) && row.suggestions == result.suggestions.GetOr([])
    ensures row.topicCoverage == result.topicCoverage.GetOr(map[])
    ensures row.feedback == result.feedback && row.codeQualityScore == result.codeQualityScore
  {
    ProcessingRow(req).(
      status := AnalysisStatus.Completed,
      overallGrade := OverallGrade(requirements, result),
      requirementsMet := result.requirementsMet.GetOr([]),
      topicCoverage := result.topicCoverage.GetOr(map[]),
      feedback := result.feedback,
      suggestions := result.suggestions.GetOr([]),
      codeQualityScore := result.codeQualityScore,
      analyzedAt := Some(now))
  }

  function Fail(e: AnalyzeError, s: Store): AnalyzeResult {
    AnalyzeResult(AnalyzeFailed(500, ErrorMessage(e)), s)
  }

  /** One invocation. Only the analyses table is written: a failed repository
      lookup or analysis insert writes nothing; once the `processing` row is in,
      only the success path turns it `completed`, and no path marks it
      `failed`. Every failure answers 500 with the error's message. */
  function Analyze(req: AnalyzeRequest, env: AnalyzeEnv, now: Time, s: Store): (r: AnalyzeResult)
    ensures r.store == s.(analyses := r.store.analyses)
    ensures |s.analyses| <= |r.store.analyses| <= |s.analyses| + 1
    ensures r.store.analyses[..|s.analyses|] == s.analyses
    ensures req.repositoryId.githubRepoId !in s.repos ==>
              r == AnalyzeResult(AnalyzeFailed(500, CaughtMessage(env.repoLookupError)), s)
    ensures req.repositoryId.githubRepoId in s.repos && env.insertError.Some? ==>
              r == AnalyzeResult(AnalyzeFailed(500, CaughtMessage(env.insertError.value)), s)
    ensures |r.store.analyses| == |s.analyses| + 1 <==>
              req.repositoryId.githubRepoId in s.repos && env.insertError.None?
    ensures req.repositoryId.githubRepoId in s.repos && env.insertError.None? && !env.apiKeyConfigured ==>
              r.reply == AnalyzeFailed(500, ErrorMessage(ApiKeyMissing))
    ensures req.repositoryId.githubRepoId in s.repos && env.insertError.None? && env.apiKeyConfigured &&
            !HttpOk(env.ai.status) ==>
              r.reply == AnalyzeFailed(500, ErrorMessage(ClassifyAiStatus(env.ai.status)))
    ensures r.reply.AnalyzeFailed? && |r.store.analyses| == |s.analyses| + 1 ==>
              r.store.analyses[|s.analyses|] == ProcessingRow(req)
    ensures r.reply.AnalyzeFailed? ==> r.reply.httpStatus == 500
    ensures r.reply.Analyzed? <==>
              req.repositoryId.githubRepoId in s.repos && env.insertError.None? &&
              env.apiKeyConfigured && HttpOk(env.ai.status)
    ensures |r.store.analyses| == |s.analyses| + 1 ==>
              var row := r.store.analyses[|s.analyses|];
              row.repositoryId == req.repositoryId && row.commitSha == req.commitSha &&
              (row.status == AnalysisStatus.Completed <==> r.reply.Analyzed?) &&
              (row.status == Processing <==> r.reply.AnalyzeFailed?)
    ensures r.reply.Analyzed? ==>
              |r.store.analyses| == |s.analyses| + 1 &&
              r.store.analyses[|s.analyses|] ==
                CompletedRow(req, LoadRequirements(req.assignmentId, s.assignments), env.ai.result, now)
    ensures r.reply.Analyzed? ==>
              |r.store.analyses| == |s.analyses| + 1 && r.reply.analysisId == |s.analyses| &&
              r.store.analyses[|s.analyses|].overallGrade == r.reply.overallGrade &&
              r.store.analyses[|s.analyses|].analyzedAt == Some(now)
  {
    if req.repositoryId.githubRepoId !in s.repos then
      Fail(StoreError(env.repoLookupError), s)
    else
      var requirements := LoadRequirements(req.assignmentId, s.assignments);
      if env.insertError.Some? then
        Fail(StoreError(env.insertError.value), s)
      else
        var id := |s.analyses|;
        var started := s.(analyses := s.analyses + [ProcessingRow(req)]);
        if !env.apiKeyConfigured then
          Fail(ApiKeyMissing, started)
        else if !HttpOk(env.ai.status) then
          Fail(ClassifyAiStatus(env.ai.status), started)
        else
          var row := CompletedRow(req, requirements, env.ai.result, now);
          AnalyzeResult(Analyzed(id, row.overallGrade, env.ai.result.feedback),
                        s.(analyses := s.analyses + [row]))
  }

  /** On success the reported grade is the grade formula applied to the
      assignment's requirements and the model's verdicts. */
  lemma AnalyzeReportsGrade(req: AnalyzeRequest, env: AnalyzeEnv, now: Time, s: Store)
    requires Analyze(req, env, now, s).reply.Analyzed?
    ensures Analyze(req, env, now, s).reply.overallGrade ==
            OverallGrade(LoadRequirements(req.assignmentId, s.assignments), env.ai.result)
  {
  }

  /** A rate-limited gateway call leaves the analysis `processing` and answers
      500 with the rate-limit message. */
  lemma RateLimitLeavesProcessing(req: AnalyzeRequest, env: AnalyzeEnv, now: Time, s: Store)
    requires req.repositoryId.githubRepoId in s.repos && env.insertError.None? && env.apiKeyConfigured
    requires env.ai.status == 429
    ensures Analyze(req, env, now, s).reply == AnalyzeFailed(500, RateLimitMessage)
    ensures Analyze(req, env, now, s).store.analyses == s.analyses + [ProcessingRow(req)]
  {
  }
}

=== FILE: dashboard.dfy ===
/** The dashboard read model: a student view (activity window, commit count,
    distinct-day streak, recent analyses) and a teacher view (per-batch health
    metrics), chosen by the requested type and the caller's role. Table reads
    are given as listings in the order the queries return them. */
module Dashboard {
  import opened Wrappers
  import opened Schema

  const UnauthorizedMessage := "Unauthorized"
  const InvalidTypeMessage := "Invalid dashboard type"
  const StudentWindowDays := 30
  const ActiveWindowDays := 3
  const RecentAnalysesLimit := 3

  /** The error status: 401 exactly for the unauthorized message, else 500. */
  function ErrorStatus(message: string): (status: nat)
    ensures status == 401 <==> message == UnauthorizedMessage
    ensures status != 401 ==> status == 500
  {
    if message == UnauthorizedMessage then 401 else 500
  }

  // ---------------------------------------------------------------- student

  /** A repository row of the student with its embedded analyses. */
  datatype StudentRepo = StudentRepo(row: RepoRow, analyses: seq<AnalysisRow>)

  datatype StudentStats = StudentStats(totalCommits: nat, activeRepositories: nat, currentStreak: nat,
                                       recentAnalyses: seq<AnalysisRow>)

  /** The student's activities of the last thirty days, in listing order. */
  function Window(acts: seq<Activity>, userId: UserId, now: Time): (w: seq<Activity>)
    ensures |w| <= |acts|
    ensures forall a :: a in w <==> a in acts && a.studentId == userId && a.occurredAt >= now - StudentWindowDays * DayMs
  {
    if acts == [] then []
    else
      var rest := Window(acts[1..], userId, now);
      assert forall a :: a in acts <==> a == acts[0] || a in acts[1..];
      if acts[0].studentId == userId && acts[0].occurredAt >= now - StudentWindowDays * DayMs then [acts[0]] + rest
      else rest
  }

  /** The number of commit activities. */
  function CommitCount(w: seq<Activity>): (n: nat)
    ensures n <= |w|
  {
    if w == [] then 0 else (if w[0].kind == Commit then 1 else 0) + CommitCount(w[1..])
  }

  function Kinds(w: seq<Activity>): seq<ActivityType> {
    seq(|w|, i requires 0 <= i < |w| => w[i].kind)
  }

  /** The commit count is the multiplicity of `Commit` among the activity kinds:
      only commits count, every one of them once. */
  lemma {:induction false} CommitCountIsMultiplicity(w: seq<Activity>)
    ensures CommitCount(w) == multiset(Kinds(w))[Commit]
  {
    if w != [] {
      CommitCountIsMultiplicity(w[1..]);
      assert Kinds(w) == [w[0].kind] + Kinds(w[1..]);
    }
  }

  /** The calendar days, under the given day function, on which the window has
      activity. */
  function Days(w: seq<Activity>, dayOf: Time -> int): (days: set<int>)
    ensures forall d :: d in days <==> exists a :: a in w && dayOf(a.occurredAt) == d
  {
    set a | a in w :: dayOf(a.occurredAt)
  }

  /** The streak never exceeds the number of activities it is drawn from. */
  lemma {:induction false} StreakAtMostActivities(w: seq<Activity>, dayOf: Time -> int)
    ensures |Days(w, dayOf)| <= |w|
  {
    if w != [] {
      StreakAtMostActivities(w[1..], dayOf);
      assert Days(w, dayOf) == {dayOf(w[0].occurredAt)} + Days(w[1..], dayOf) by {
        assert forall a :: a in w <==> a == w[0] || a in w[1..];
      }
    }
  }

  /** The streak counts distinct active days, not consecutive ones: activity on
      two days five days apart gives a streak of 2. */
  lemma StreakIsNotConsecutive(userId: UserId, now: Time)
    ensures var dayOf := (t: Time) => t / DayMs;
            var a := Activity(userId, None, Commit, None, None, None, now, NoMetadata);
            var b := a.(occurredAt := now - 5 * DayMs);
            |Days([a, b], dayOf)| == 2
  {
    var dayOf := (t: Time) => t / DayMs;
    var a := Activity(userId, None, Commit, None, None, None, now, NoMetadata);
    var b := a.(occurredAt := now - 5 * DayMs);
    assert dayOf(b.occurredAt) == dayOf(a.occurredAt) - 5;
    assert Days([a, b], dayOf) == {dayOf(a.occurredAt), dayOf(b.occurredAt)};
  }

  /** All analyses of the listed repositories, repository by repository. */
  function Flatten(repos: seq<StudentRepo>): (all: seq<AnalysisRow>)
    ensures forall x :: x in all <==> exists i :: 0 <= i < |repos| && x in repos[i].analyses
  {
    if repos == [] then []
    else
      var rest := Flatten(repos[1..]);
      assert forall i :: 1 <= i < |repos| ==> repos[i] == repos[1..][i - 1];
      repos[0].analyses + rest
  }

  /** The first three analyses of the flattened listing. */
  function Recent(repos: seq<StudentRepo>): (recent: seq<AnalysisRow>)
    ensures |recent| == if |Flatten(repos)| < RecentAnalysesLimit then |Flatten(repos)| else RecentAnalysesLimit
    ensures recent <= Flatten(repos)
  {
    var all := Flatten(repos);
    if |all| < RecentAnalysesLimit then all else all[..RecentAnalysesLimit]
  }

  /** The student's repositories among the listed ones. */
  function OwnRepos(repos: seq<StudentRepo>, userId: UserId): (own: seq<StudentRepo>)
    ensures |own| <= |repos|
    ensures forall r :: r in own <==> r in repos && r.row.studentId == userId
  {
    if repos == [] then []
    else
      var rest := OwnRepos(repos[1..], userId);
      assert forall r :: r in repos <==> r == repos[0] || r in repos[1..];
      if repos[0].row.studentId == userId then [repos[0]] + rest else rest
  }

  function StudentStatsOf(w: seq<Activity>, own: seq<StudentRepo>, dayOf: Time -> int): StudentStats {
    StudentStats(CommitCount(w), |own|, |Days(w, dayOf)|, Recent(own))
  }

  // ---------------------------------------------------------------- teacher

  /** An embedded repository of a batch student: its analyses' grades. */
  datatype RepoGrades = RepoGrades(grades: seq<Option<real>>)

  /** A batch student with embedded repositories and activity timestamps. */
  datatype BatchStudent = BatchStudent(id: UserId, repositories: seq<RepoGrades>, activityTimes: seq<Time>)

  datatype Batch = Batch(id: string, name: string, teacherId: UserId, isActive: bool, students: seq<BatchStudent>)

  datatype BatchMetrics = BatchMetrics(batchId: string, batchName: string, totalStudents: nat,
                                       activeStudents: nat, averageGrade: real, needsAttention: int)

  /** A student is active when some activity is at most three days old. */
  predicate Active(st: BatchStudent, now: Time) {
    exists i :: 0 <= i < |st.activityTimes| && st.activityTimes[i] >= now - ActiveWindowDays * DayMs
  }

  function ActiveStudents(sts: seq<BatchStudent>, now: Time): (act: seq<BatchStudent>)
    ensures |act| <= |sts|
    ensures forall st :: st in act <==> st in sts && Active(st, now)
  {
    if sts == [] then []
    else
      var rest := ActiveStudents(sts[1..], now);
      assert forall st :: st in sts <==> st == sts[0] || st in sts[1..];
      if Active(sts[0], now) then [sts[0]] + rest else rest
  }

  function InactiveStudents(sts: seq<BatchStudent>, now: Time): (idle: seq<BatchStudent>)
    ensures forall st :: st in idle <==> st in sts && !Active(st, now)
  {
    if sts == [] then []
    else
      var rest := InactiveStudents(sts[1..], now);
      assert forall st :: st in sts <==> st == sts[0] || st in sts[1..];
      if Active(sts[0], now) then rest else [sts[0]] + rest
  }

  /** Active and inactive students partition the batch. */
  lemma {:induction false} ActivePartition(sts: seq<BatchStudent>, now: Time)
    ensures |ActiveStudents(sts, now)| + |InactiveStudents(sts, now)| == |sts|
  {
    if sts != [] {
      ActivePartition(sts[1..], now);
    }
  }

  /** The grade a student contributes: the first analysis of the first
      repository, or 0 when there is none or it has no grade. */
  function FirstGrade(st: BatchStudent): (g: real)
    ensures st.repositories == [] ==> g == 0.0
    ensures g != 0.0 ==>
              |st.repositories| > 0 && |st.repositories[0].grades| > 0 && st.repositories[0].grades[0] == Some(g)
  {
    if |st.repositories| > 0 && |st.repositories[0].grades| > 0 && st.repositories[0].grades[0].Some?
    then st.repositories[0].grades[0].value
    else 0.0
  }

  /** The sum of the students' first-analysis grades. */
  function GradeSum(sts: seq<BatchStudent>): (sum: real)
    ensures (forall i :: 0 <= i < |sts| ==> FirstGrade(sts[i]) == 0.0) ==> sum == 0.0
    ensures (forall i :: 0 <= i < |sts| ==> FirstGrade(sts[i]) >= 0.0) ==> sum >= 0.0
  {
    if sts == [] then 0.0
    else
      assert forall i :: 1 <= i < |sts| ==> sts[i] == sts[1..][i - 1];
      FirstGrade(sts[0]) + GradeSum(sts[1..])
  }

  /** The mean first-analysis grade; an empty batch averages 0. */
  function Average(sts: seq<BatchStudent>): (a: real)
    ensures sts == [] ==> a == 0.0
    ensures |sts| > 0 ==> a * |sts| as real == GradeSum(sts)
  {
    var n := (if |sts| == 0 then 1 else |sts|) as real;
    DivTimes(GradeSum(sts), n);
    GradeSum(sts) / n
  }

  lemma DivTimes(x: real, n: real)
    requires n > 0.0
    ensures x / n * n == x
  {
  }

  /** The health metrics of one batch. */
  function MetricsOf(b: Batch, now: Time): (m: BatchMetrics)
    ensures m.batchId == b.id && m.batchName == b.name && m.totalStudents == |b.students|
    ensures 0 <= m.needsAttention && m.activeStudents + m.needsAttention == m.totalStudents
    ensures m.needsAttention == |InactiveStudents(b.students, now)|
    ensures b.students == [] ==> m.averageGrade == 0.0
    ensures m.averageGrade == Average(b.students)
    ensures m.activeStudents == |ActiveStudents(b.students, now)|
  {
    var active := |ActiveStudents(b.students, now)|;
    ActivePartition(b.students, now);
    BatchMetrics(b.id, b.name, |b.students|, active, Average(b.students), |b.students| - active)
  }

  /** A student's first-analysis grade lies in [0, 100]. */
  predicate GradeInRange(st: BatchStudent) {
    0.0 <= FirstGrade(st) <= 100.0
  }

  lemma {:induction false} GradeSumBounds(sts: seq<BatchStudent>)
    requires forall i :: 0 <= i < |sts| ==> GradeInRange(sts[i])
    ensures 0.0 <= GradeSum(sts) <= 100.0 * |sts| as real
  {
    if sts != [] {
      assert GradeInRange(sts[0]);
      GradeSumBounds(sts[1..]);
    }
  }

  /** With every first grade in [0, 100], the batch average is too. */
  lemma AverageBounds(b: Batch, now: Time)
    requires forall i :: 0 <= i < |b.students| ==> GradeInRange(b.students[i])
    ensures 0.0 <= MetricsOf(b, now).averageGrade <= 100.0
  {
    GradeSumBounds(b.students);
    if |b.students| > 0 {
      DivBound(GradeSum(b.students), |b.students| as real);
    }
  }

  lemma DivBound(x: real, n: real)
    requires n > 0.0 && 0.0 <= x <= 100.0 * n
    ensures 0.0 <= x / n <= 100.0
  {
    assert x / n * n == x;
  }

  /** Students without a graded analysis count as 0 in the average: a batch
      of one student graded 80 and one without analyses averages 40. */
  lemma UngradedStudentsLowerAverage(now: Time)
    ensures var graded := BatchStudent("a", [RepoGrades([Some(80.0)])], []);
            var ungraded := BatchStudent("b", [], []);
            MetricsOf(Batch("b1", "Batch", "t", true, [graded, ungraded]), now).averageGrade == 40.0
  {
    var graded := BatchStudent("a", [RepoGrades([Some(80.0)])], []);
    var ungraded := BatchStudent("b", [], []);
    assert FirstGrade(graded) == 80.0;
    assert FirstGrade(ungraded) == 0.0;
    assert GradeSum([ungraded]) == 0.0 by {
      assert [ungraded][1..] == [];
    }
    assert GradeSum([graded, ungraded]) == 80.0 by {
      assert [graded, ungraded][1..] == [ungraded];
    }
  }

  /** The caller's active batches. */
  function TeacherBatches(batches: seq<Batch>, teacherId: UserId): (own: seq<Batch>)
    ensures forall b :: b in own <==> b in batches && b.teacherId == teacherId && b.isActive
  {
    if batches == [] then []
    else
      var rest := TeacherBatches(batches[1..], teacherId);
      assert forall b :: b in batches <==> b == batches[0] || b in batches[1..];
      if batches[0].teacherId == teacherId && batches[0].isActive then [batches[0]] + rest else rest
  }

  // ---------------------------------------------------------------- dispatch

  datatype DashboardReply =
    | StudentView(activities: seq<Activity>, repositories: seq<StudentRepo>, stats: StudentStats)
    | TeacherView(batches: seq<Batch>, metrics: seq<BatchMetrics>)
    | DashboardError(status: nat, message: string)

  function RoleOf(userId: UserId, s: Store): Option<UserRole> {
    if userId in s.users then Some(s.users[userId].role) else None
  }

  /** One request of the given type by the user the session resolves to
      (`auth`). A student view is served to every signed-in user; a teacher
      view only to a user whose stored role is teacher. */
  function Dashboard(auth: Option<UserId>, kind: string, s: Store, acts: seq<Activity>,
                     repos: seq<StudentRepo>, batches: seq<Batch>, now: Time, dayOf: Time -> int): (r: DashboardReply)
    ensures auth.None? ==> r == DashboardError(401, UnauthorizedMessage)
    ensures r.StudentView? <==> auth.Some? && kind == "student"
    ensures r.TeacherView? <==> auth.Some? && kind == "teacher" && RoleOf(auth.value, s) == Some(Teacher)
    ensures auth.Some? && !r.StudentView? && !r.TeacherView? ==> r == DashboardError(500, InvalidTypeMessage)
    ensures r.DashboardError? ==> r.status == ErrorStatus(r.message)
    ensures r.StudentView? ==>
              r.activities == Window(acts, auth.value, now) &&
              r.repositories == OwnRepos(repos, auth.value) &&
              r.stats.totalCommits == CommitCount(r.activities) &&
              r.stats.currentStreak == |Days(r.activities, dayOf)| &&
              r.stats.recentAnalyses == Recent(r.repositories)
    ensures r.StudentView? ==>
              (forall a :: a in r.activities ==> a.studentId == auth.value) &&
              r.stats.totalCommits <= |r.activities| &&
              r.stats.currentStreak <= |r.activities| &&
              |r.stats.recentAnalyses| <= RecentAnalysesLimit &&
              r.stats.activeRepositories == |r.repositories|
    ensures r.TeacherView? ==> r.batches == TeacherBatches(batches, auth.value)
    ensures r.TeacherView? ==>
              |r.metrics| == |r.batches| &&
              forall i :: 0 <= i < |r.batches| ==>
                r.batches[i].teacherId == auth.value && r.batches[i].isActive &&
                r.metrics[i] == MetricsOf(r.batches[i], now)
  {
    if auth.None? then DashboardError(ErrorStatus(UnauthorizedMessage), UnauthorizedMessage)
    else if kind == "student" then
      var w := Window(acts, auth.value, now);
      var own := OwnRepos(repos, auth.value);
      StreakAtMostActivities(w, dayOf);
      StudentView(w, own, StudentStatsOf(w, own, dayOf))
    else if kind == "teacher" && RoleOf(auth.value, s) == Some(Teacher) then
      var own := TeacherBatches(batches, auth.value);
      TeacherView(own, seq(|own|, i requires 0 <= i < |own| => MetricsOf(own[i], now)))
    else
      DashboardError(ErrorStatus(InvalidTypeMessage), InvalidTypeMessage)
  }
}

=== FILE: fetch.dfy ===
/** The signed-in user's GitHub import: it reads the stored GitHub token,
    requests the user, repositories, commits of the first ten repositories and
    the user's pull requests, mirrors the profile, and upserts repositories on
    `github_repo_id`, commits on `commit_sha` and pull requests on
    `github_event_id`. Every failure answers 400. */
module Fetch {
  import opened Wrappers
  import opened Schema
  import opened GitHub
  import Keyed
  import Text

  /** One repository's commits as gathered. */
  datatype RepoCommits = RepoCommits(repo: string, commits: seq<GitHub.Commit>)

  /** Commit gathering either yields every repository's list or fails as a whole
      because one request threw. */
  datatype Gathered = Gathered(data: seq<RepoCommits>) | GatherFailed(message: string)

  datatype FetchOutcome =
    | Fetched(login: string, repos: nat, commits: nat, pullRequests: nat)
    | FetchFailed(message: string)

  datatype FetchResult = FetchResult(outcome: FetchOutcome, store: Store)

  const UnauthorizedMessage := "Unauthorized"
  const TokenNotFoundMessage := "GitHub token not found"

  /** The HTTP status of the answer: 200, or 400 for every error. */
  function HttpStatus(o: FetchOutcome): (status: nat)
    ensures status == 400 <==> o.FetchFailed?
    ensures status == 200 <==> o.Fetched?
  {
    if o.Fetched? then 200 else 400
  }

  /** The commit requests for the given repositories, combined the way
      `Promise.all` combines them: a non-OK reply gives that repository an empty
      list, and a request that throws fails the whole gathering (with the first
      such failure in list order). */
  function GatherCommits(repos: seq<Repo>, commitsFor: Repo -> CommitFetch): (g: Gathered)
    ensures g.Gathered? <==> forall i :: 0 <= i < |repos| ==> commitsFor(repos[i]).Replied?
    ensures g.Gathered? ==>
              |g.data| == |repos| &&
              forall i :: 0 <= i < |repos| ==>
                g.data[i].repo == repos[i].name &&
                g.data[i].commits == (if HttpOk(commitsFor(repos[i]).status) then commitsFor(repos[i]).commits else [])
  {
    if repos == [] then Gathered([])
    else
      var first := commitsFor(repos[0]);
      var rest := GatherCommits(repos[1..], commitsFor);
      assert forall i :: 1 <= i < |repos| ==> repos[i] == repos[1..][i - 1];
      match first
      case Threw(m) => GatherFailed(m)
      case Replied(status, commits) =>
        if rest.GatherFailed? then rest
        else Gathered([RepoCommits(repos[0].name, if HttpOk(status) then commits else [])] + rest.data)
  }

  /** The reported commit count: the sum of the gathered list lengths. */
  function TotalCommits(data: seq<RepoCommits>): (total: nat)
    ensures forall i :: 0 <= i < |data| ==> |data[i].commits| <= total
    ensures total == 0 <==> forall i :: 0 <= i < |data| ==> data[i].commits == []
  {
    if data == [] then 0
    else
      assert forall i :: 1 <= i < |data| ==> data[i] == data[1..][i - 1];
      |data[0].commits| + TotalCommits(data[1..])
  }

  /** The upsert of one listed repository; a missing or empty default branch is
      written as "main". */
  function FetchRepoWrite(userId: UserId, r: Repo, now: Time): (w: RepoWrite)
    ensures w.githubRepoId == r.id && w.studentId == userId && w.repoName == r.name
    ensures w.defaultBranch == Some(if Truthy(r.defaultBranch) then r.defaultBranch.value else "main")
  {
    RepoWrite(r.id, userId, r.name, r.htmlUrl,
              Some(if Truthy(r.defaultBranch) then r.defaultBranch.value else "main"), now)
  }

  function FetchRepoWrites(userId: UserId, repos: seq<Repo>, now: Time): (ws: seq<RepoWrite>)
    ensures |ws| == |repos|
    ensures forall i :: 0 <= i < |ws| ==> ws[i] == FetchRepoWrite(userId, repos[i], now)
  {
    seq(|repos|, i requires 0 <= i < |repos| => FetchRepoWrite(userId, repos[i], now))
  }

  /** The upsert of one fetched commit, filed under the given repository row,
      keyed on its SHA and carrying its author and line statistics. */
  function CommitUpsert(userId: UserId, ref: RepoRef, c: GitHub.Commit): (w: CommitWrite)
    ensures CommitWriteKey(w) == CommitKey(c.sha) && w.repositoryId == ref && w.studentId == userId
    ensures w.occurredAt == c.author.date && w.metadata == Some(CommitMeta(c.author, c.stats))
  {
    CommitWrite(userId, ref, c.sha, c.message, c.author.date, Some(CommitMeta(c.author, c.stats)))
  }

  /** The upserts of one repository's commits, in order, filed under its row. */
  function RepoCommitUpserts(userId: UserId, ref: RepoRef, cs: seq<GitHub.Commit>): (ws: seq<CommitWrite>)
    ensures |ws| == |cs|
    ensures forall j :: 0 <= j < |cs| ==> ws[j] == CommitUpsert(userId, ref, cs[j])
    ensures forall w :: w in ws ==> exists j :: 0 <= j < |cs| && w == CommitUpsert(userId, ref, cs[j])
  {
    var ws := seq(|cs|, j requires 0 <= j < |cs| => CommitUpsert(userId, ref, cs[j]));
    assert forall w :: w in ws ==> exists j :: 0 <= j < |cs| && w == CommitUpsert(userId, ref, cs[j]) by {
      forall w | w in ws ensures exists j :: 0 <= j < |cs| && w == CommitUpsert(userId, ref, cs[j]) {
        var j :| 0 <= j < |ws| && ws[j] == w;
      }
    }
    ws
  }

  /** Commit upserts: every commit of each repository whose single-row lookup by
      name succeeds, filed under that row; a repository the lookup misses
      contributes none. */
  function FetchCommitWrites(userId: UserId, data: seq<RepoCommits>, repos: map<nat, RepoRow>): (ws: seq<CommitWrite>)
    ensures |ws| <= TotalCommits(data)
    ensures forall i :: 0 <= i < |ws| ==> ws[i].metadata.Some? && ws[i].studentId == userId
    ensures forall d, j :: 0 <= d < |data| && 0 <= j < |data[d].commits| && LookupRepo(repos, userId, data[d].repo).Some? ==>
              CommitUpsert(userId, LookupRepo(repos, userId, data[d].repo).value, data[d].commits[j]) in ws
    ensures forall w :: w in ws ==>
              exists d, j :: 0 <= d < |data| && 0 <= j < |data[d].commits| &&
                             LookupRepo(repos, userId, data[d].repo) == Some(w.repositoryId) &&
                             w == CommitUpsert(userId, w.repositoryId, data[d].commits[j])
  {
    if data == [] then []
    else
      var rest := FetchCommitWrites(userId, data[1..], repos);
      assert forall d :: 1 <= d < |data| ==> data[d] == data[1..][d - 1];
      match LookupRepo(repos, userId, data[0].repo)
      case None => rest
      case Some(ref) => RepoCommitUpserts(userId, ref, data[0].commits) + rest
  }

  /** Commit upserts depend on the repository table only through the lookup by
      owner and name. */
  lemma {:induction false} FetchCommitWritesSameLookup(userId: UserId, data: seq<RepoCommits>,
                                                       a: map<nat, RepoRow>, b: map<nat, RepoRow>)
    requires Keyed.RelatedTables(SameOwnerAndName, a, b)
    ensures FetchCommitWrites(userId, data, a) == FetchCommitWrites(userId, data, b)
  {
    if data != [] {
      LookupRepoSeesNames(a, b, userId, data[0].repo);
      FetchCommitWritesSameLookup(userId, data[1..], a, b);
    }
  }

  /** The upsert of one pull request, keyed on the decimal rendering of its
      provider id, from which the id reads back. */
  function PrUpsert(userId: UserId, pr: PullRequest): (w: EventWrite)
    ensures w.studentId == userId && w.occurredAt == pr.updatedAt
    ensures w.metadata == SearchedPullRequestMeta(pr.title, pr.state, pr.htmlUrl)
    ensures |w.eventId| >= 1 && (forall i :: 0 <= i < |w.eventId| ==> Text.IsDigit(w.eventId[i])) &&
            Text.ParseNat(w.eventId) == pr.id
  {
    Text.ParseNatToString(pr.id);
    EventWrite(userId, Text.NatToString(pr.id), pr.updatedAt, SearchedPullRequestMeta(pr.title, pr.state, pr.htmlUrl))
  }

  /** Pull-request upserts, keyed on the decimal rendering of the provider id;
      no `items` means none. */
  function PrWrites(userId: UserId, search: PrSearch): (ws: seq<EventWrite>)
    ensures |ws| == |search.items.GetOr([])|
    ensures forall i :: 0 <= i < |ws| ==> ws[i] == PrUpsert(userId, search.items.GetOr([])[i])
  {
    var items := search.items.GetOr([]);
    seq(|items|, i requires 0 <= i < |items| => PrUpsert(userId, items[i]))
  }

  /** Two pull requests share a row only if they have the same provider id. */
  lemma PrKeysDistinguishIds(userId: UserId, search: PrSearch, i: nat, j: nat)
    requires i < |search.items.GetOr([])| && j < |search.items.GetOr([])|
    ensures EventWriteKey(PrWrites(userId, search)[i]) == EventWriteKey(PrWrites(userId, search)[j]) <==>
            search.items.value[i].id == search.items.value[j].id
  {
    Text.NatToStringInjective(search.items.value[i].id, search.items.value[j].id);
  }

  /** The store after a run that got past every check. */
  function FetchWrites(userId: UserId, gh: Replies, data: seq<RepoCommits>, now: Time, s: Store): Store {
    var users := if userId in s.users then s.users[userId := s.users[userId].(mirror := MirrorOf(gh.user, now))] else s.users;
    var repos := Keyed.UpsertAll(s.repos, FetchRepoWrites(userId, gh.repos, now), RepoKey, ApplyRepoWrite);
    var acts1 := Keyed.UpsertAll(s.activities, FetchCommitWrites(userId, data, repos), CommitWriteKey, ApplyCommitWrite);
    var acts2 := Keyed.UpsertAll(acts1, PrWrites(userId, gh.prs), EventWriteKey, ApplyEventWrite);
    s.(users := users, repos := repos, activities := acts2)
  }

  function StoredToken(userId: UserId, s: Store): Option<string> {
    if userId in s.users then s.users[userId].githubAccessToken else None
  }

  /** One run for the user the bearer token resolves to (`auth`). No user, or no
      stored GitHub token, fails before any GitHub request; a failed user
      request or a thrown commit request fails before anything is written. */
  function Fetch(auth: Option<UserId>, gh: Replies, now: Time, s: Store): (r: FetchResult)
    ensures auth.None? ==> r == FetchResult(FetchFailed(UnauthorizedMessage), s)
    ensures auth.Some? && !Truthy(StoredToken(auth.value, s)) ==> r == FetchResult(FetchFailed(TokenNotFoundMessage), s)
    ensures auth.Some? && Truthy(StoredToken(auth.value, s)) && !HttpOk(gh.user.status) ==>
              r == FetchResult(FetchFailed(ApiErrorPrefix + gh.user.statusText), s)
    ensures r.outcome.FetchFailed? ==> r.store == s
    ensures r.outcome.Fetched? <==>
              auth.Some? && Truthy(StoredToken(auth.value, s)) && HttpOk(gh.user.status) &&
              GatherCommits(CommitRepos(gh.repos), gh.commitsFor).Gathered?
    ensures r.outcome.Fetched? ==>
              r.outcome.login == gh.user.login && r.outcome.repos == |gh.repos| &&
              r.outcome.commits == TotalCommits(GatherCommits(CommitRepos(gh.repos), gh.commitsFor).data) &&
              r.outcome.pullRequests == gh.prs.totalCount.GetOr(0)
    ensures r.store == s.(users := r.store.users, repos := r.store.repos, activities := r.store.activities)
  {
    if auth.None? then
      FetchResult(FetchFailed(UnauthorizedMessage), s)
    else if !Truthy(StoredToken(auth.value, s)) then
      FetchResult(FetchFailed(TokenNotFoundMessage), s)
    else if !HttpOk(gh.user.status) then
      FetchResult(FetchFailed(ApiErrorPrefix + gh.user.statusText), s)
    else
      match GatherCommits(CommitRepos(gh.repos), gh.commitsFor)
      case GatherFailed(m) => FetchResult(FetchFailed(m), s)
      case Gathered(data) =>
        FetchResult(Fetched(gh.user.login, |gh.repos|, TotalCommits(data), gh.prs.totalCount.GetOr(0)),
                    FetchWrites(auth.value, gh, data, now, s))
  }

  /** The reported commit count is the number of commits of the OK replies among
      the first ten repositories. */
  lemma {:induction false} ReportedCommitsAreOkReplies(repos: seq<Repo>, commitsFor: Repo -> CommitFetch)
    requires GatherCommits(repos, commitsFor).Gathered?
    ensures TotalCommits(GatherCommits(repos, commitsFor).data) == OkCommitCount(repos, commitsFor)
  {
    if repos != [] {
      ReportedCommitsAreOkReplies(repos[1..], commitsFor);
    }
  }

  /** Reference count: commits in the OK replies, repository by repository. */
  function OkCommitCount(repos: seq<Repo>, commitsFor: Repo -> CommitFetch): nat {
    if repos == [] then 0
    else
      var f := commitsFor(repos[0]);
      (if f.Replied? && HttpOk(f.status) then |f.commits| else 0) + OkCommitCount(repos[1..], commitsFor)
  }

  /** Commit upserts followed by pull-request upserts add no more commit rows
      than there are commit upserts. */
  lemma NewCommitRowsBound(acts: map<ActivityKey, Activity>, cws: seq<CommitWrite>, pws: seq<EventWrite>)
    ensures var after := Keyed.UpsertAll(Keyed.UpsertAll(acts, cws, CommitWriteKey, ApplyCommitWrite), pws, EventWriteKey, ApplyEventWrite);
            |set k | k in after && k !in acts && k.CommitKey?| <= |cws|
  {
    var acts1 := Keyed.UpsertAll(acts, cws, CommitWriteKey, ApplyCommitWrite);
    var after := Keyed.UpsertAll(acts1, pws, EventWriteKey, ApplyEventWrite);
    Keyed.UpsertAllFrame(acts, cws, CommitWriteKey, ApplyCommitWrite);
    Keyed.UpsertAllFrame(acts1, pws, EventWriteKey, ApplyEventWrite);
    var added := set k | k in after && k !in acts && k.CommitKey?;
    CommitAndEventKeysDisjoint(cws, pws);
    assert added <= Keyed.KeysOf(cws, CommitWriteKey);
    Keyed.SubsetCard(added, Keyed.KeysOf(cws, CommitWriteKey));
    Keyed.KeysOfBound(cws, CommitWriteKey);
  }

  /** A run adds no more commit rows than the commits it reports. */
  lemma FetchStoresAtMostReported(auth: Option<UserId>, gh: Replies, now: Time, s: Store)
    requires Fetch(auth, gh, now, s).outcome.Fetched?
    ensures var r := Fetch(auth, gh, now, s);
            |set k | k in r.store.activities && k !in s.activities && k.CommitKey?| <= r.outcome.commits
  {
    var r := Fetch(auth, gh, now, s);
    var uid := auth.value;
    var data := GatherCommits(CommitRepos(gh.repos), gh.commitsFor).data;
    var cws := FetchCommitWrites(uid, data, r.store.repos);
    NewCommitRowsBound(s.activities, cws, PrWrites(uid, gh.prs));
  }

  /** After a run, every gathered commit of a repository whose lookup by name
      succeeds in the updated repository table has a row under its SHA. */
  lemma FetchStoresFoundCommits(auth: Option<UserId>, gh: Replies, now: Time, s: Store, d: nat, j: nat)
    requires auth.Some? && Truthy(StoredToken(auth.value, s)) && HttpOk(gh.user.status)
    requires GatherCommits(CommitRepos(gh.repos), gh.commitsFor).Gathered?
    requires d < |GatherCommits(CommitRepos(gh.repos), gh.commitsFor).data|
    requires j < |GatherCommits(CommitRepos(gh.repos), gh.commitsFor).data[d].commits|
    ensures var r := Fetch(auth, gh, now, s);
            var data := GatherCommits(CommitRepos(gh.repos), gh.commitsFor).data;
            LookupRepo(r.store.repos, auth.value, data[d].repo).Some? ==> CommitKey(data[d].commits[j].sha) in r.store.activities
  {
    var r := Fetch(auth, gh, now, s);
    var uid := auth.value;
    var data := GatherCommits(CommitRepos(gh.repos), gh.commitsFor).data;
    var cws := FetchCommitWrites(uid, data, r.store.repos);
    var acts1 := Keyed.UpsertAll(s.activities, cws, CommitWriteKey, ApplyCommitWrite);
    assert r.store.activities == Keyed.UpsertAll(acts1, PrWrites(uid, gh.prs), EventWriteKey, ApplyEventWrite);
    var found := LookupRepo(r.store.repos, uid, data[d].repo);
    if found.Some? {
      var w := CommitUpsert(uid, found.value, data[d].commits[j]);
      assert w in cws;
      var k :| 0 <= k < |cws| && cws[k] == w;
      assert CommitWriteKey(cws[k]) == CommitKey(data[d].commits[j].sha);
    }
  }

  /** The writes of a run leave a row for the listed repository, owned by the
      user, with a default branch. */
  lemma FetchWritesStoreRepo(userId: UserId, gh: Replies, data: seq<RepoCommits>, now: Time, s: Store, i: nat)
    requires i < |gh.repos|
    ensures var repos := FetchWrites(userId, gh, data, now, s).repos;
            gh.repos[i].id in repos && repos[gh.repos[i].id].defaultBranch.Some? && repos[gh.repos[i].id].studentId == userId
  {
    var ws := FetchRepoWrites(userId, gh.repos, now);
    var id := gh.repos[i].id;
    assert RepoKey(ws[i]) == id;
    Keyed.UpsertAllLastWins(s.repos, ws, RepoKey, ApplyRepoWrite, id);
  }

  /** Every listed repository has a row afterwards whose default branch is set,
      to "main" when GitHub gave none. */
  lemma FetchStoresRepos(auth: Option<UserId>, gh: Replies, now: Time, s: Store, i: nat)
    requires auth.Some? && Truthy(StoredToken(auth.value, s)) && HttpOk(gh.user.status)
    requires GatherCommits(CommitRepos(gh.repos), gh.commitsFor).Gathered?
    requires i < |gh.repos|
    ensures var r := Fetch(auth, gh, now, s);
            gh.repos[i].id in r.store.repos && r.store.repos[gh.repos[i].id].defaultBranch.Some? &&
            r.store.repos[gh.repos[i].id].studentId == auth.value
  {
    var data := GatherCommits(CommitRepos(gh.repos), gh.commitsFor).data;
    assert Fetch(auth, gh, now, s).store == FetchWrites(auth.value, gh, data, now, s);
    FetchWritesStoreRepo(auth.value, gh, data, now, s, i);
  }

  /** Every pull request of the search has a row afterwards, under its provider
      id. */
  lemma FetchStoresPullRequests(auth: Option<UserId>, gh: Replies, now: Time, s: Store, i: nat)
    requires Fetch(auth, gh, now, s).outcome.Fetched?
    requires i < |gh.prs.items.GetOr([])|
    ensures EventKey(Text.NatToString(gh.prs.items.value[i].id)) in Fetch(auth, gh, now, s).store.activities
  {
    var data := GatherCommits(CommitRepos(gh.repos), gh.commitsFor).data;
    var repos := Fetch(auth, gh, now, s).store.repos;
    var acts1 := Keyed.UpsertAll(s.activities, FetchCommitWrites(auth.value, data, repos), CommitWriteKey, ApplyCommitWrite);
    var pws := PrWrites(auth.value, gh.prs);
    assert EventWriteKey(pws[i]) == EventKey(Text.NatToString(gh.prs.items.value[i].id));
    Keyed.UpsertAllFrame(acts1, pws, EventWriteKey, ApplyEventWrite);
  }

  /** A later run's repository upserts keep the owner and name of every row of
      a table the first run's upserts already settled. */
  lemma ReplayedRepoWritesKeepNames(userId: UserId, repos: seq<Repo>, now: Time, now2: Time, m: map<nat, RepoRow>)
    requires Keyed.UpsertAll(m, FetchRepoWrites(userId, repos, now), RepoKey, ApplyRepoWrite) == m
    ensures Keyed.RelatedTables(SameOwnerAndName, m, Keyed.UpsertAll(m, FetchRepoWrites(userId, repos, now2), RepoKey, ApplyRepoWrite))
  {
    var rws := FetchRepoWrites(userId, repos, now);
    var rws2 := FetchRepoWrites(userId, repos, now2);
    RestampedRepoWrites(rws, rws2);
    Keyed.UpsertAllCongruent(SameOwnerAndName, m, m, rws, rws2, RepoKey, ApplyRepoWrite);
  }

  /** Applying the same commit and pull-request upserts a second time leaves the
      activity table as the first application left it. */
  lemma ReplayedActivityWrites(acts: map<ActivityKey, Activity>, cws: seq<CommitWrite>, pws: seq<EventWrite>)
    requires UniformCommitWrites(cws)
    ensures var once := Keyed.UpsertAll(Keyed.UpsertAll(acts, cws, CommitWriteKey, ApplyCommitWrite), pws, EventWriteKey, ApplyEventWrite);
            Keyed.UpsertAll(Keyed.UpsertAll(once, cws, CommitWriteKey, ApplyCommitWrite), pws, EventWriteKey, ApplyEventWrite) == once
  {
    CommitWritesAbsorbing(cws);
    EventWritesAbsorbing(pws);
    var acts1 := Keyed.UpsertAll(acts, cws, CommitWriteKey, ApplyCommitWrite);
    var acts2 := Keyed.UpsertAll(acts1, pws, EventWriteKey, ApplyEventWrite);
    Keyed.UpsertAllSettles(acts, cws, CommitWriteKey, ApplyCommitWrite);
    CommitAndEventKeysDisjoint(cws, pws);
    Keyed.SettledFrame(acts1, cws, CommitWriteKey, ApplyCommitWrite, pws, EventWriteKey, ApplyEventWrite);
    Keyed.UpsertAllFixedPoint(acts2, cws, CommitWriteKey, ApplyCommitWrite);
    Keyed.UpsertAllIdempotent(acts1, pws, EventWriteKey, ApplyEventWrite);
  }

  /** The writes of a run applied a second time, at any later time, to the
      store the first application produced. */
  lemma FetchWritesReplayed(userId: UserId, gh: Replies, data: seq<RepoCommits>, now: Time, now2: Time, s: Store)
    ensures var once := FetchWrites(userId, gh, data, now, s);
            var twice := FetchWrites(userId, gh, data, now2, once);
            twice.activities == once.activities && twice.repos.Keys == once.repos.Keys &&
            (now2 == now ==> twice == once)
  {
    var once := FetchWrites(userId, gh, data, now, s);
    var rws := FetchRepoWrites(userId, gh.repos, now);
    RepoWritesAbsorbing(rws);
    Keyed.UpsertAllIdempotent(s.repos, rws, RepoKey, ApplyRepoWrite);
    ReplayedRepoWritesKeepNames(userId, gh.repos, now, now2, once.repos);
    var repos2 := Keyed.UpsertAll(once.repos, FetchRepoWrites(userId, gh.repos, now2), RepoKey, ApplyRepoWrite);
    FetchCommitWritesSameLookup(userId, data, once.repos, repos2);
    ReplayedActivityWrites(s.activities, FetchCommitWrites(userId, data, once.repos), PrWrites(userId, gh.prs));
  }

  /** Replaying a run with the same GitHub replies, at any later time, adds
      and changes no activity row and no repository id; at the same time it
      changes nothing at all. */
  lemma FetchIdempotent(auth: Option<UserId>, gh: Replies, now: Time, now2: Time, s: Store)
    ensures var once := Fetch(auth, gh, now, s);
            var twice := Fetch(auth, gh, now2, once.store);
            twice.store.activities == once.store.activities &&
            twice.store.repos.Keys == once.store.repos.Keys &&
            (now2 == now ==> twice.store == once.store)
  {
    var once := Fetch(auth, gh, now, s);
    if once.outcome.Fetched? {
      var uid := auth.value;
      var data := GatherCommits(CommitRepos(gh.repos), gh.commitsFor).data;
      assert once.store == FetchWrites(uid, gh, data, now, s);
      assert StoredToken(uid, once.store) == StoredToken(uid, s);
      assert Fetch(auth, gh, now2, once.store).store == FetchWrites(uid, gh, data, now2, once.store);
      FetchWritesReplayed(uid, gh, data, now, now2, s);
    }
  }

  /** A run keeps the store valid. */
  lemma FetchPreservesValid(auth: Option<UserId>, gh: Replies, now: Time, s: Store)
    requires Valid(s)
    ensures Valid(Fetch(auth, gh, now, s).store)
  {
    var r := Fetch(auth, gh, now, s);
    if r.outcome.Fetched? {
      var uid := auth.value;
      var data := GatherCommits(CommitRepos(gh.repos), gh.commitsFor).data;
      var cws := FetchCommitWrites(uid, data, r.store.repos);
      CommitWritesPreserveValid(s, cws);
      var s1 := s.(activities := Keyed.UpsertAll(s.activities, cws, CommitWriteKey, ApplyCommitWrite));
      EventWritesPreserveValid(s1, PrWrites(uid, gh.prs));
    }
  }
}

=== FILE: github.dfy ===
/** The GitHub REST replies the ingestion functions consume, as parsed values.
    The network is not modelled: the replies are inputs. */
module GitHub {
  import opened Wrappers
  import opened Schema

  datatype UserReply = UserReply(status: nat, statusText: string, login: string, avatarUrl: string, publicRepos: int)

  datatype Repo = Repo(id: nat, name: string, fullName: string, htmlUrl: string, defaultBranch: Option<string>)

  datatype Commit = Commit(sha: string, message: string, author: CommitAuthor, htmlUrl: string, stats: Option<CommitStats>)

  /** The outcome of one repository's commit request: a reply, or a rejected
      request (a network failure). */
  datatype CommitFetch = Replied(status: nat, commits: seq<Commit>) | Threw(message: string)

  datatype PullRequest = PullRequest(id: nat, title: string, state: string, htmlUrl: string, updatedAt: Time)

  /** The pull-request search reply; both keys may be missing. */
  datatype PrSearch = PrSearch(totalCount: Option<nat>, items: Option<seq<PullRequest>>)

  /** Everything GitHub answers during one ingestion run. */
  datatype Replies = Replies(user: UserReply, repos: seq<Repo>, commitsFor: Repo -> CommitFetch, prs: PrSearch)

  /** Commits are requested for this many of the most recently updated
      repositories. */
  const CommitRepoLimit: nat := 10

  const ApiErrorPrefix := "GitHub API error: "

  function Min(a: nat, b: nat): nat {
    if a <= b then a else b
  }

  /** The repositories whose commits are requested. */
  function CommitRepos(repos: seq<Repo>): (rs: seq<Repo>)
    ensures |rs| <= CommitRepoLimit && |rs| <= |repos|
    ensures rs == repos[..|rs|]
    ensures |repos| <= CommitRepoLimit ==> rs == repos
  {
    repos[..Min(CommitRepoLimit, |repos|)]
  }

  /** The mirror fields a run writes on the user's profile. */
  function MirrorOf(user: UserReply, now: Time): GitHubMirror {
    GitHubMirror(Some(user.login), Some(user.avatarUrl), Some(user.publicRepos), Some(now))
  }
}

=== FILE: heatmap.dfy ===
/** The commit heatmap's colour scale: a day's commit count picks one of the
    five classes of the legend, from "Less" to "More". */
module Heatmap {

  /** The legend, in order of increasing activity. */
  const Legend: seq<string> := ["bg-muted/30", "bg-primary/30", "bg-primary/60", "bg-primary/80", "bg-primary"]

  /** Reference scale: how many of the thresholds "non-zero", "> 2", "> 5" and
      "> 8" the count passes. */
  function IntensityLevel(commits: int): (l: nat)
    ensures l < |Legend|
  {
    (if commits != 0 then 1 else 0) + (if commits > 2 then 1 else 0) +
    (if commits > 5 then 1 else 0) + (if commits > 8 then 1 else 0)
  }

  /** The class of a day's cell, tested in the order the component tests it:
      zero, at most 2, at most 5, at most 8, anything else. Every count gets
      exactly one class, and it is the legend entry of the count's level. */
  function ColorIntensity(commits: int): (c: string)
    ensures c in Legend
    ensures c == Legend[IntensityLevel(commits)]
  {
    if commits == 0 then "bg-muted/30"
    else if commits <= 2 then "bg-primary/30"
    else if commits <= 5 then "bg-primary/60"
    else if commits <= 8 then "bg-primary/80"
    else "bg-primary"
  }

  /** More commits never give a lighter cell. */
  lemma IntensityMonotone(a: int, b: int)
    requires 0 <= a <= b
    ensures IntensityLevel(a) <= IntensityLevel(b)
  {
  }

  /** The buckets, spelled out; a negative count lands in the second one since
      it is non-zero and at most 2. */
  lemma IntensityBuckets(c: int)
    ensures c == 0 ==> ColorIntensity(c) == "bg-muted/30"
    ensures c < 0 || 1 <= c <= 2 ==> ColorIntensity(c) == "bg-primary/30"
    ensures 3 <= c <= 5 ==> ColorIntensity(c) == "bg-primary/60"
    ensures 6 <= c <= 8 ==> ColorIntensity(c) == "bg-primary/80"
    ensures c >= 9 ==> ColorIntensity(c) == "bg-primary"
  {
  }
}

=== FILE: keyed.dfy ===
/** Keyed tables with insert-or-update ("upsert") on a conflict key, the way
    the store resolves `upsert(..., { onConflict: column })`: the row already
    stored under the key, if any, is combined with the write; every other row
    is left alone. How a write is combined with the old row is a parameter
    (`apply`), because each caller supplies a different set of columns. */
module Keyed {
  import opened Wrappers

  function Get<K(==), R>(m: map<K, R>, k: K): Option<R> {
    if k in m then Some(m[k]) else None
  }

  /** One upsert. */
  function Upsert<K(==), R, W>(m: map<K, R>, w: W, key: W -> K, apply: (Option<R>, W) -> R): (m': map<K, R>)
    ensures m'.Keys == m.Keys + {key(w)}
    ensures m'[key(w)] == apply(Get(m, key(w)), w)
    ensures forall k :: k in m && k != key(w) ==> m'[k] == m[k]
  {
    m[key(w) := apply(Get(m, key(w)), w)]
  }

  /** A sequence of upserts, applied in order. Upserts never delete a row, and
      every write leaves a row under its key. */
  function UpsertAll<K(==), R, W>(m: map<K, R>, ws: seq<W>, key: W -> K, apply: (Option<R>, W) -> R): (m': map<K, R>)
    ensures m.Keys <= m'.Keys
    ensures forall i :: 0 <= i < |ws| ==> key(ws[i]) in m'
    decreases |ws|
  {
    if ws == [] then m
    else
      var r := UpsertAll(Upsert(m, ws[0], key, apply), ws[1..], key, apply);
      assert forall i :: 1 <= i < |ws| ==> ws[i] == ws[1..][i - 1];
      r
  }

  /** The conflict keys a sequence of writes touches. */
  function KeysOf<K(==), W>(ws: seq<W>, key: W -> K): (ks: set<K>)
    ensures forall i :: 0 <= i < |ws| ==> key(ws[i]) in ks
    ensures forall k :: k in ks ==> exists i :: 0 <= i < |ws| && key(ws[i]) == k
  {
    if ws == [] then {}
    else
      var rest := KeysOf(ws[1..], key);
      assert forall i :: 1 <= i < |ws| ==> ws[i] == ws[1..][i - 1];
      {key(ws[0])} + rest
  }

  /** Position of the last write to key `k`. */
  function LastIndex<K(==), W>(ws: seq<W>, key: W -> K, k: K): (i: nat)
    requires k in KeysOf(ws, key)
    ensures i < |ws| && key(ws[i]) == k
    ensures forall j :: i < j < |ws| ==> key(ws[j]) != k
    decreases |ws|
  {
    if k in KeysOf(ws[1..], key) then
      var j := LastIndex(ws[1..], key, k);
      1 + j
    else
      assert forall j :: 1 <= j < |ws| ==> ws[j] == ws[1..][j - 1];
      0
  }

  /** The last write to key `k`. */
  function LastWrite<K(==), W>(ws: seq<W>, key: W -> K, k: K): W
    requires k in KeysOf(ws, key)
  {
    ws[LastIndex(ws, key, k)]
  }

  /** A later write to a key overrides everything an earlier write to the same
      key put there: upserting both is the same as upserting the later one. This
      holds when every write of a batch supplies the same columns. */
  ghost predicate Absorbing<K, R(!new), W>(ws: seq<W>, key: W -> K, apply: (Option<R>, W) -> R) {
    forall r: Option<R>, i, j ::
      0 <= i <= j < |ws| && key(ws[i]) == key(ws[j]) ==>
        apply(Some(apply(r, ws[i])), ws[j]) == apply(r, ws[j])
  }

  /** Every touched key holds a row that its last write would leave unchanged. */
  ghost predicate Settled<K, R, W>(m: map<K, R>, ws: seq<W>, key: W -> K, apply: (Option<R>, W) -> R) {
    forall k :: k in KeysOf(ws, key) ==> k in m && apply(Some(m[k]), LastWrite(ws, key, k)) == m[k]
  }

  lemma AbsorbingTail<K, R(!new), W>(ws: seq<W>, key: W -> K, apply: (Option<R>, W) -> R)
    requires |ws| > 0
    requires Absorbing(ws, key, apply)
    ensures Absorbing(ws[1..], key, apply)
  {
    forall r: Option<R>, i, j | 0 <= i <= j < |ws| - 1 && key(ws[1..][i]) == key(ws[1..][j])
      ensures apply(Some(apply(r, ws[1..][i])), ws[1..][j]) == apply(r, ws[1..][j])
    {
      assert ws[1..][i] == ws[i + 1] && ws[1..][j] == ws[j + 1];
    }
  }

  /** Upserts add exactly the touched keys, and rows under keys no write touches
      are left as they were. */
  lemma {:induction false} UpsertAllFrame<K, R, W>(m: map<K, R>, ws: seq<W>, key: W -> K, apply: (Option<R>, W) -> R)
    ensures UpsertAll(m, ws, key, apply).Keys == m.Keys + KeysOf(ws, key)
    ensures forall k :: k in m && k !in KeysOf(ws, key) ==> UpsertAll(m, ws, key, apply)[k] == m[k]
    decreases |ws|
  {
    if ws != [] {
      UpsertAllFrame(Upsert(m, ws[0], key, apply), ws[1..], key, apply);
    }
  }

  /** After a batch of upserts every touched key is settled with respect to its
      last write. */
  lemma {:induction false} UpsertAllSettles<K, R(!new), W>(m: map<K, R>, ws: seq<W>, key: W -> K, apply: (Option<R>, W) -> R)
    requires Absorbing(ws, key, apply)
    ensures Settled(UpsertAll(m, ws, key, apply), ws, key, apply)
    decreases |ws|
  {
    if ws != [] {
      var m1 := Upsert(m, ws[0], key, apply);
      var rest := ws[1..];
      AbsorbingTail(ws, key, apply);
      UpsertAllSettles(m1, rest, key, apply);
      UpsertAllFrame(m1, rest, key, apply);
      var r := UpsertAll(m, ws, key, apply);
      forall k | k in KeysOf(ws, key)
        ensures k in r && apply(Some(r[k]), LastWrite(ws, key, k)) == r[k]
      {
        if k in KeysOf(rest, key) {
          assert LastWrite(ws, key, k) == LastWrite(rest, key, k);
        } else {
          assert k == key(ws[0]);
          assert LastIndex(ws, key, k) == 0;
          assert r[k] == apply(Get(m, k), ws[0]);
        }
      }
    }
  }

  /** When every touched key is already present, a batch of upserts replaces each
      touched row by its last write applied to the row it started from. */
  lemma {:induction false} UpsertAllPresent<K, R(!new), W>(m: map<K, R>, ws: seq<W>, key: W -> K, apply: (Option<R>, W) -> R)
    requires KeysOf(ws, key) <= m.Keys
    requires Absorbing(ws, key, apply)
    ensures UpsertAll(m, ws, key, apply) ==
      map k | k in m :: if k in KeysOf(ws, key) then apply(Some(m[k]), LastWrite(ws, key, k)) else m[k]
    decreases |ws|
  {
    if ws != [] {
      var k0 := key(ws[0]);
      var m1 := Upsert(m, ws[0], key, apply);
      var rest := ws[1..];
      AbsorbingTail(ws, key, apply);
      UpsertAllPresent(m1, rest, key, apply);
      var target := map k | k in m :: if k in KeysOf(ws, key) then apply(Some(m[k]), LastWrite(ws, key, k)) else m[k];
      var got := UpsertAll(m, ws, key, apply);
      assert m1.Keys == m.Keys;
      forall k | k in m
        ensures got[k] == target[k]
      {
        if k == k0 {
          if k0 in KeysOf(rest, key) {
            var j := LastIndex(rest, key, k0);
            assert LastWrite(ws, key, k0) == rest[j] == ws[j + 1];
            assert got[k0] == apply(Some(apply(Some(m[k0]), ws[0])), ws[j + 1]);
          } else {
            assert LastIndex(ws, key, k0) == 0;
          }
        } else if k in KeysOf(rest, key) {
          assert LastWrite(ws, key, k) == LastWrite(rest, key, k);
        }
      }
      assert got.Keys == target.Keys;
    }
  }

  /** A batch of upserts does nothing to a table that is already settled with
      respect to it. */
  lemma UpsertAllFixedPoint<K, R(!new), W>(m: map<K, R>, ws: seq<W>, key: W -> K, apply: (Option<R>, W) -> R)
    requires Absorbing(ws, key, apply)
    requires Settled(m, ws, key, apply)
    ensures UpsertAll(m, ws, key, apply) == m
  {
    UpsertAllPresent(m, ws, key, apply);
  }

  /** Replaying a batch of upserts changes nothing: one row per conflict key,
      holding what the first run left there. */
  lemma UpsertAllIdempotent<K, R(!new), W>(m: map<K, R>, ws: seq<W>, key: W -> K, apply: (Option<R>, W) -> R)
    requires Absorbing(ws, key, apply)
    ensures UpsertAll(UpsertAll(m, ws, key, apply), ws, key, apply) == UpsertAll(m, ws, key, apply)
  {
    UpsertAllSettles(m, ws, key, apply);
    UpsertAllFixedPoint(UpsertAll(m, ws, key, apply), ws, key, apply);
  }

  /** Settledness survives upserts to other keys. */
  lemma SettledFrame<K, R, W, V>(m: map<K, R>, ws: seq<W>, key: W -> K, apply: (Option<R>, W) -> R,
                                  vs: seq<V>, vkey: V -> K, vapply: (Option<R>, V) -> R)
    requires Settled(m, ws, key, apply)
    requires KeysOf(ws, key) !! KeysOf(vs, vkey)
    ensures Settled(UpsertAll(m, vs, vkey, vapply), ws, key, apply)
  {
    UpsertAllFrame(m, vs, vkey, vapply);
  }

  /** A batch touches at most as many keys as it has writes. */
  lemma {:induction false} KeysOfBound<K, W>(ws: seq<W>, key: W -> K)
    ensures |KeysOf(ws, key)| <= |ws|
    decreases |ws|
  {
    if ws != [] {
      KeysOfBound(ws[1..], key);
    }
  }

  lemma {:induction false} SubsetCard<T>(a: set<T>, b: set<T>)
    requires a <= b
    ensures |a| <= |b|
    decreases |b|
  {
    if a != {} {
      var x :| x in a;
      SubsetCard(a - {x}, b - {x});
    }
  }

  /** The row under a touched key is the last write to it, applied to whatever
      was there before that write. */
  lemma {:induction false} UpsertAllLastWins<K, R, W>(m: map<K, R>, ws: seq<W>, key: W -> K, apply: (Option<R>, W) -> R, k: K)
    requires k in KeysOf(ws, key)
    ensures k in UpsertAll(m, ws, key, apply)
    ensures exists r: Option<R> :: UpsertAll(m, ws, key, apply)[k] == apply(r, LastWrite(ws, key, k))
    decreases |ws|
  {
    var m1 := Upsert(m, ws[0], key, apply);
    UpsertAllFrame(m1, ws[1..], key, apply);
    if k in KeysOf(ws[1..], key) {
      UpsertAllLastWins(m1, ws[1..], key, apply, k);
      assert LastWrite(ws, key, k) == LastWrite(ws[1..], key, k);
    } else {
      assert LastIndex(ws, key, k) == 0;
      assert k == key(ws[0]);
      var prior := Get(m, k);
      assert UpsertAll(m, ws, key, apply)[k] == m1[k] == apply(prior, LastWrite(ws, key, k));
    }
  }

  /** A property of each row under its key that every write preserves holds of
      the whole table after a batch of upserts. */
  lemma {:induction false} UpsertAllPreserves<K, R, W>(m: map<K, R>, ws: seq<W>, key: W -> K, apply: (Option<R>, W) -> R,
                                                       p: (K, R) -> bool)
    requires forall k :: k in m ==> p(k, m[k])
    requires forall r: Option<R>, i :: 0 <= i < |ws| && (r.Some? ==> p(key(ws[i]), r.value)) ==> p(key(ws[i]), apply(r, ws[i]))
    ensures forall k :: k in UpsertAll(m, ws, key, apply) ==> p(k, UpsertAll(m, ws, key, apply)[k])
    decreases |ws|
  {
    if ws != [] {
      var m1 := Upsert(m, ws[0], key, apply);
      var r0 := Get(m, key(ws[0]));
      assert r0.Some? ==> p(key(ws[0]), r0.value);
      assert p(key(ws[0]), apply(r0, ws[0]));
      forall r: Option<R>, i | 0 <= i < |ws[1..]| && (r.Some? ==> p(key(ws[1..][i]), r.value))
        ensures p(key(ws[1..][i]), apply(r, ws[1..][i]))
      {
        assert ws[1..][i] == ws[i + 1];
      }
      UpsertAllPreserves(m1, ws[1..], key, apply, p);
    }
  }

  /** Two rows, or two missing rows, related by `eq`. */
  ghost predicate RelatedRows<R>(eq: (R, R) -> bool, r1: Option<R>, r2: Option<R>) {
    r1.Some? == r2.Some? && (r1.Some? ==> eq(r1.value, r2.value))
  }

  /** Two tables with the same keys whose rows are related by `eq`. */
  ghost predicate RelatedTables<K, R>(eq: (R, R) -> bool, m1: map<K, R>, m2: map<K, R>) {
    m1.Keys == m2.Keys && forall k :: k in m1 ==> eq(m1[k], m2[k])
  }

  /** Two batches that touch the same keys in the same order, and whose
      corresponding writes turn related rows into related rows, keep two related
      tables related. This is how a replay at a later time is compared with the
      first run: the writes then differ only in the timestamp they carry. */
  lemma {:induction false} UpsertAllCongruent<K, R(!new), W>(eq: (R, R) -> bool, m1: map<K, R>, m2: map<K, R>,
                                                         ws1: seq<W>, ws2: seq<W>, key: W -> K, apply: (Option<R>, W) -> R)
    requires RelatedTables(eq, m1, m2)
    requires |ws1| == |ws2| && forall i :: 0 <= i < |ws1| ==> key(ws1[i]) == key(ws2[i])
    requires forall r1: Option<R>, r2: Option<R>, i ::
               0 <= i < |ws1| && RelatedRows(eq, r1, r2) ==> eq(apply(r1, ws1[i]), apply(r2, ws2[i]))
    ensures RelatedTables(eq, UpsertAll(m1, ws1, key, apply), UpsertAll(m2, ws2, key, apply))
    decreases |ws1|
  {
    if ws1 != [] {
      var k := key(ws1[0]);
      assert key(ws2[0]) == k;
      assert RelatedRows(eq, Get(m1, k), Get(m2, k));
      assert eq(apply(Get(m1, k), ws1[0]), apply(Get(m2, k), ws2[0]));
      var n1 := Upsert(m1, ws1[0], key, apply);
      var n2 := Upsert(m2, ws2[0], key, apply);
      assert RelatedTables(eq, n1, n2);
      forall i | 0 <= i < |ws1[1..]| ensures key(ws1[1..][i]) == key(ws2[1..][i]) {
        assert ws1[1..][i] == ws1[i + 1] && ws2[1..][i] == ws2[i + 1];
      }
      forall r1: Option<R>, r2: Option<R>, i | 0 <= i < |ws1[1..]| && RelatedRows(eq, r1, r2)
        ensures eq(apply(r1, ws1[1..][i]), apply(r2, ws2[1..][i]))
      {
        assert ws1[1..][i] == ws1[i + 1] && ws2[1..][i] == ws2[i + 1];
      }
      UpsertAllCongruent(eq, n1, n2, ws1[1..], ws2[1..], key, apply);
    }
  }
}

=== FILE: schema.dfy ===
/** The relational store the serverless functions read and write, abstracted as
    keyed maps. Each table that the functions upsert is keyed by the column they
    name in `onConflict`, which the store must back with a unique index, so a map
    is an exact picture of it: one row per key. */
module Schema {
  import opened Wrappers
  import Keyed

  /** Instants, in milliseconds since the epoch. */
  type Time = int

  const DayMs: int := 86_400_000

  /** A fetch response is `ok` exactly for the 2xx statuses. */
  predicate HttpOk(status: nat) {
    200 <= status <= 299
  }

  type UserId = string

  /** An error the store client returns rather than throws. The functions throw
      it unchanged, and their catch blocks report its message only when it is an
      `Error` instance; any other value is reported as unknown. */
  datatype StoreFailure = StoreFailure(message: string, isError: bool)

  const UnknownErrorMessage := "Unknown error occurred"

  /** The message a catch block reports for a thrown store failure. */
  function CaughtMessage(f: StoreFailure): (m: string)
    ensures f.isError ==> m == f.message
    ensures !f.isError ==> m == UnknownErrorMessage
  {
    if f.isError then f.message else UnknownErrorMessage
  }

  // Enumerations of the schema (`activity_type`, `analysis_status`, `user_role`,
  // `assignment_status`).
  datatype ActivityType = Commit | PullRequest | Issue | Create | Push
  datatype AnalysisStatus = Pending | Processing | Completed | Failed
  datatype UserRole = Student | Teacher | Admin
  datatype AssignmentStatus = Draft | Active | Completed | Archived

  /** Identity of a repository row. Rows are keyed by the provider-assigned
      `github_repo_id`; the row's own generated id is kept across conflicting
      upserts, so naming a row after its provider id loses nothing. */
  datatype RepoRef = RepoRef(githubRepoId: nat)

  datatype RepoRow = RepoRow(
    studentId: UserId,
    repoName: string,
    repoUrl: string,
    defaultBranch: Option<string>,   // None: never written, the column default applies
    assignmentId: Option<string>,
    isActive: bool,
    lastSyncedAt: Option<Time>)

  datatype CommitAuthor = CommitAuthor(name: string, email: string, date: Time)
  datatype CommitStats = CommitStats(additions: int, deletions: int, total: int)

  /** The free-form `metadata` column, in the shapes the functions write. */
  datatype Metadata =
    | NoMetadata
    | CommitMeta(author: CommitAuthor, stats: Option<CommitStats>)
    | PullRequestMeta(action: Option<string>, prNumber: Option<int>, title: Option<string>)
    | IssueMeta(action: Option<string>, issueNumber: Option<int>, title: Option<string>)
    | SearchedPullRequestMeta(prTitle: string, state: string, url: string)

  datatype Activity = Activity(
    studentId: UserId,
    repositoryId: Option<RepoRef>,
    kind: ActivityType,
    commitSha: Option<string>,
    eventId: Option<string>,
    message: Option<string>,
    occurredAt: Time,
    metadata: Metadata)

  /** Where an activity row lives: under its commit SHA, else under its provider
      event id, else (neither dedup column set) under a row number. */
  datatype ActivityKey = CommitKey(sha: string) | EventKey(id: string) | RowKey(n: nat)

  datatype Requirement = Requirement(description: string)

  datatype Assignment = Assignment(requirements: Option<seq<Requirement>>, status: AssignmentStatus)

  datatype Verdict = Verdict(requirement: string, status: string, evidence: string)

  datatype AnalysisRow = AnalysisRow(
    repositoryId: RepoRef,
    assignmentId: Option<string>,
    commitSha: string,
    status: AnalysisStatus,
    overallGrade: Option<real>,
    requirementsMet: seq<Verdict>,
    topicCoverage: map<string, real>,
    codeQualityScore: Option<real>,
    feedback: Option<string>,
    suggestions: seq<string>,
    analyzedAt: Option<Time>)

  /** The GitHub fields mirrored on a user's profile. */
  datatype GitHubMirror = GitHubMirror(
    username: Option<string>,
    avatarUrl: Option<string>,
    reposCount: Option<int>,
    lastSync: Option<Time>)

  datatype UserRow = UserRow(role: UserRole, githubAccessToken: Option<string>, mirror: GitHubMirror)

  datatype Store = Store(
    repos: map<nat, RepoRow>,
    activities: map<ActivityKey, Activity>,
    nextRow: nat,
    analyses: seq<AnalysisRow>,
    assignments: map<string, Assignment>,
    users: map<UserId, UserRow>,
    profiles: map<UserId, GitHubMirror>)

  /** The row stored under a key carries that key in its dedup columns. */
  predicate KeyMatches(k: ActivityKey, a: Activity) {
    match k
    case CommitKey(sha) => a.commitSha == Some(sha)
    case EventKey(id) => a.commitSha.None? && a.eventId == Some(id)
    case RowKey(_) => a.commitSha.None? && a.eventId.None?
  }

  predicate ActivityRowOk(nextRow: nat, k: ActivityKey, a: Activity) {
    KeyMatches(k, a) && (k.RowKey? ==> k.n < nextRow)
  }

  /** The store invariant: every activity row is filed under its own dedup key,
      and row numbers below the counter are the only ones in use. */
  predicate Valid(s: Store) {
    forall k :: k in s.activities ==> ActivityRowOk(s.nextRow, k, s.activities[k])
  }

  /** In a valid store no two activity rows share a commit SHA or an event id. */
  lemma DedupKeysUnique(s: Store, k1: ActivityKey, k2: ActivityKey)
    requires Valid(s)
    requires k1 in s.activities && k2 in s.activities
    ensures s.activities[k1].commitSha.Some? && s.activities[k1].commitSha == s.activities[k2].commitSha ==> k1 == k2
    ensures (s.activities[k1].commitSha.None? && s.activities[k2].commitSha.None? &&
             s.activities[k1].eventId.Some? && s.activities[k1].eventId == s.activities[k2].eventId) ==> k1 == k2
  {
    assert ActivityRowOk(s.nextRow, k1, s.activities[k1]);
    assert ActivityRowOk(s.nextRow, k2, s.activities[k2]);
  }

  /** The next row number is free in a valid store. */
  lemma RowKeyFresh(s: Store)
    requires Valid(s)
    ensures RowKey(s.nextRow) !in s.activities
  {
    forall k | k in s.activities ensures k != RowKey(s.nextRow) {
      assert ActivityRowOk(s.nextRow, k, s.activities[k]);
    }
  }

  // ---------------------------------------------------------------- repositories

  /** The columns a repository upsert supplies. `defaultBranch` is None when the
      caller does not supply that column. */
  datatype RepoWrite = RepoWrite(
    githubRepoId: nat,
    studentId: UserId,
    repoName: string,
    repoUrl: string,
    defaultBranch: Option<string>,
    syncedAt: Time)

  function RepoKey(w: RepoWrite): nat {
    w.githubRepoId
  }

  /** Insert-or-update of a repository row: supplied columns are overwritten,
      the rest keep their stored (or default) value. */
  function ApplyRepoWrite(prior: Option<RepoRow>, w: RepoWrite): (r: RepoRow)
    ensures r.studentId == w.studentId && r.repoName == w.repoName && r.repoUrl == w.repoUrl
    ensures r.lastSyncedAt == Some(w.syncedAt)
    ensures r.defaultBranch == (if w.defaultBranch.Some? then w.defaultBranch
                                else if prior.Some? then prior.value.defaultBranch else None)
    ensures prior.Some? ==> r.assignmentId == prior.value.assignmentId && r.isActive == prior.value.isActive
    ensures prior.None? ==> r.assignmentId.None? && r.isActive
  {
    var base := prior.GetOr(RepoRow(w.studentId, w.repoName, w.repoUrl, None, None, true, None));
    base.(studentId := w.studentId, repoName := w.repoName, repoUrl := w.repoUrl,
          defaultBranch := if w.defaultBranch.Some? then w.defaultBranch else base.defaultBranch,
          lastSyncedAt := Some(w.syncedAt))
  }

  /** Every write of the batch supplies `default_branch`, or none does. */
  predicate UniformRepoWrites(ws: seq<RepoWrite>) {
    (forall i :: 0 <= i < |ws| ==> ws[i].defaultBranch.Some?) ||
    (forall i :: 0 <= i < |ws| ==> ws[i].defaultBranch.None?)
  }

  lemma RepoWritesAbsorbing(ws: seq<RepoWrite>)
    requires UniformRepoWrites(ws)
    ensures Keyed.Absorbing(ws, RepoKey, ApplyRepoWrite)
  {
    forall r: Option<RepoRow>, i, j | 0 <= i <= j < |ws| && RepoKey(ws[i]) == RepoKey(ws[j])
      ensures ApplyRepoWrite(Some(ApplyRepoWrite(r, ws[i])), ws[j]) == ApplyRepoWrite(r, ws[j])
    {
    }
  }

  lemma SingletonIs<T>(s: set<T>, x: T)
    requires |s| == 1 && x in s
    ensures s == {x}
  {
    assert |s - {x}| == 0;
  }

  /** The only element of a one-element set. */
  function TheOnly<T(==)>(s: set<T>): (x: T)
    requires |s| == 1
    ensures s == {x}
  {
    assert forall a, b :: a in s && b in s ==> a == b by {
      forall a, b | a in s && b in s ensures a == b {
        SingletonIs(s, a);
      }
    }
    var x :| x in s;
    SingletonIs(s, x);
    x
  }

  /** The student's repositories with the given name. */
  function ReposNamed(repos: map<nat, RepoRow>, studentId: UserId, name: string): set<nat> {
    set k | k in repos && repos[k].studentId == studentId && repos[k].repoName == name
  }

  /** A single-row lookup of a student's repository by name: it yields the row
      only when exactly one row matches. */
  function LookupRepo(repos: map<nat, RepoRow>, studentId: UserId, name: string): (r: Option<RepoRef>)
    ensures r.Some? <==> |ReposNamed(repos, studentId, name)| == 1
    ensures r.Some? ==> r.value.githubRepoId in repos &&
                        repos[r.value.githubRepoId].studentId == studentId &&
                        repos[r.value.githubRepoId].repoName == name
  {
    var ids := ReposNamed(repos, studentId, name);
    if |ids| == 1 then Some(RepoRef(TheOnly(ids))) else None
  }

  /** Two repository rows agree on their owner and name. */
  predicate SameOwnerAndName(x: RepoRow, y: RepoRow) {
    x.studentId == y.studentId && x.repoName == y.repoName
  }

  /** The lookup by name sees nothing of a row but its owner and name: tables
      that agree on those answer every lookup alike. */
  lemma LookupRepoSeesNames(a: map<nat, RepoRow>, b: map<nat, RepoRow>, studentId: UserId, name: string)
    requires Keyed.RelatedTables(SameOwnerAndName, a, b)
    ensures LookupRepo(a, studentId, name) == LookupRepo(b, studentId, name)
  {
    assert ReposNamed(a, studentId, name) == ReposNamed(b, studentId, name);
  }

  /** Repository writes that differ only in their timestamp write the same owner
      and name, whatever rows they meet. */
  lemma RestampedRepoWrites(ws1: seq<RepoWrite>, ws2: seq<RepoWrite>)
    requires |ws1| == |ws2|
    requires forall i :: 0 <= i < |ws1| ==> ws2[i] == ws1[i].(syncedAt := ws2[i].syncedAt)
    ensures forall i :: 0 <= i < |ws1| ==> RepoKey(ws1[i]) == RepoKey(ws2[i])
    ensures forall r1: Option<RepoRow>, r2: Option<RepoRow>, i ::
              0 <= i < |ws1| && Keyed.RelatedRows(SameOwnerAndName, r1, r2) ==>
                SameOwnerAndName(ApplyRepoWrite(r1, ws1[i]), ApplyRepoWrite(r2, ws2[i]))
  {
    forall r1: Option<RepoRow>, r2: Option<RepoRow>, i | 0 <= i < |ws1| && Keyed.RelatedRows(SameOwnerAndName, r1, r2)
      ensures SameOwnerAndName(ApplyRepoWrite(r1, ws1[i]), ApplyRepoWrite(r2, ws2[i]))
    {
      assert ws2[i].studentId == ws1[i].studentId && ws2[i].repoName == ws1[i].repoName;
    }
  }

  // ---------------------------------------------------------------- activities

  /** The columns a commit-activity upsert supplies (keyed on `commit_sha`).
      `metadata` is None when the caller does not supply that column. */
  datatype CommitWrite = CommitWrite(
    studentId: UserId,
    repositoryId: RepoRef,
    sha: string,
    message: string,
    occurredAt: Time,
    metadata: Option<Metadata>)

  function CommitWriteKey(w: CommitWrite): ActivityKey {
    CommitKey(w.sha)
  }

  function ApplyCommitWrite(prior: Option<Activity>, w: CommitWrite): (a: Activity)
    ensures KeyMatches(CommitWriteKey(w), a)
    ensures a.kind == Commit && a.studentId == w.studentId && a.repositoryId == Some(w.repositoryId)
    ensures a.message == Some(w.message) && a.occurredAt == w.occurredAt
    ensures w.metadata.Some? ==> a.metadata == w.metadata.value
    ensures prior.Some? ==> a.eventId == prior.value.eventId
  {
    var base := prior.GetOr(Activity(w.studentId, None, Commit, None, None, None, w.occurredAt, NoMetadata));
    base.(studentId := w.studentId, repositoryId := Some(w.repositoryId), kind := Commit,
          commitSha := Some(w.sha), message := Some(w.message), occurredAt := w.occurredAt,
          metadata := if w.metadata.Some? then w.metadata.value else base.metadata)
  }

  /** Every write of the batch supplies `metadata`, or none does. */
  predicate UniformCommitWrites(ws: seq<CommitWrite>) {
    (forall i :: 0 <= i < |ws| ==> ws[i].metadata.Some?) ||
    (forall i :: 0 <= i < |ws| ==> ws[i].metadata.None?)
  }

  lemma CommitWritesAbsorbing(ws: seq<CommitWrite>)
    requires UniformCommitWrites(ws)
    ensures Keyed.Absorbing(ws, CommitWriteKey, ApplyCommitWrite)
  {
    forall r: Option<Activity>, i, j | 0 <= i <= j < |ws| && CommitWriteKey(ws[i]) == CommitWriteKey(ws[j])
      ensures ApplyCommitWrite(Some(ApplyCommitWrite(r, ws[i])), ws[j]) == ApplyCommitWrite(r, ws[j])
    {
    }
  }

  /** The columns a pull-request activity upsert supplies (keyed on
      `github_event_id`). */
  datatype EventWrite = EventWrite(studentId: UserId, eventId: string, occurredAt: Time, metadata: Metadata)

  function EventWriteKey(w: EventWrite): ActivityKey {
    EventKey(w.eventId)
  }

  function ApplyEventWrite(prior: Option<Activity>, w: EventWrite): (a: Activity)
    ensures (prior.Some? ==> prior.value.commitSha.None?) ==> KeyMatches(EventWriteKey(w), a)
    ensures a.kind == PullRequest && a.studentId == w.studentId && a.eventId == Some(w.eventId)
    ensures a.occurredAt == w.occurredAt && a.metadata == w.metadata
  {
    var base := prior.GetOr(Activity(w.studentId, None, PullRequest, None, None, None, w.occurredAt, NoMetadata));
    base.(studentId := w.studentId, kind := PullRequest, eventId := Some(w.eventId),
          occurredAt := w.occurredAt, metadata := w.metadata)
  }

  lemma EventWritesAbsorbing(ws: seq<EventWrite>)
    ensures Keyed.Absorbing(ws, EventWriteKey, ApplyEventWrite)
  {
    forall r: Option<Activity>, i, j | 0 <= i <= j < |ws| && EventWriteKey(ws[i]) == EventWriteKey(ws[j])
      ensures ApplyEventWrite(Some(ApplyEventWrite(r, ws[i])), ws[j]) == ApplyEventWrite(r, ws[j])
    {
    }
  }

  /** Commit upserts keep the store valid. */
  lemma CommitWritesPreserveValid(s: Store, ws: seq<CommitWrite>)
    requires Valid(s)
    ensures Valid(s.(activities := Keyed.UpsertAll(s.activities, ws, CommitWriteKey, ApplyCommitWrite)))
  {
    var p := (k: ActivityKey, a: Activity) => ActivityRowOk(s.nextRow, k, a);
    Keyed.UpsertAllPreserves(s.activities, ws, CommitWriteKey, ApplyCommitWrite, p);
  }

  /** Pull-request upserts keep the store valid. */
  lemma EventWritesPreserveValid(s: Store, ws: seq<EventWrite>)
    requires Valid(s)
    ensures Valid(s.(activities := Keyed.UpsertAll(s.activities, ws, EventWriteKey, ApplyEventWrite)))
  {
    var p := (k: ActivityKey, a: Activity) => ActivityRowOk(s.nextRow, k, a);
    Keyed.UpsertAllPreserves(s.activities, ws, EventWriteKey, ApplyEventWrite, p);
  }

  /** Commit keys and event keys never clash. */
  lemma CommitAndEventKeysDisjoint(cs: seq<CommitWrite>, es: seq<EventWrite>)
    ensures Keyed.KeysOf(cs, CommitWriteKey) !! Keyed.KeysOf(es, EventWriteKey)
  {
    forall k | k in Keyed.KeysOf(cs, CommitWriteKey) ensures k.CommitKey? { }
    forall k | k in Keyed.KeysOf(es, EventWriteKey) ensures k.EventKey? { }
  }
}

=== FILE: sync.dfy ===
/** The on-demand GitHub sync for a student: it reads the GitHub user, the
    repositories and the recent commits of the first ten of them, mirrors the
    profile, upserts the repositories on `github_repo_id` and at most fifty
    commits on `commit_sha`, and reports what it fetched. */
module Sync {
  import opened Wrappers
  import opened Schema
  import opened GitHub
  import Keyed

  datatype SyncRequest = SyncRequest(studentId: Option<string>, githubToken: Option<string>)

  /** A fetched commit, flattened with the name of its repository. */
  datatype SyncedCommit = SyncedCommit(repo: string, sha: string, message: string, date: Time, url: string)

  datatype SyncOutcome =
    | Synced(username: string, reposCount: nat, commitsSynced: nat, prsCount: Option<nat>)
    | SyncFailed(message: string)

  datatype SyncResult = SyncResult(outcome: SyncOutcome, store: Store)

  const MissingParamsMessage := "Missing required parameters: studentId and githubToken"

  /** At most this many fetched commits are stored. */
  const StoredCommitLimit: nat := 50

  /** The commits one repository contributes: those of an OK reply; nothing for
      a failed reply or a request that threw. */
  function RepoCommits(repo: Repo, fetch: CommitFetch): (cs: seq<SyncedCommit>)
    ensures fetch.Threw? || !HttpOk(fetch.status) ==> cs == []
    ensures fetch.Replied? && HttpOk(fetch.status) ==>
              |cs| == |fetch.commits| &&
              forall i :: 0 <= i < |cs| ==> cs[i].repo == repo.name && cs[i].sha == fetch.commits[i].sha
  {
    match fetch
    case Threw(_) => []
    case Replied(status, commits) =>
      if HttpOk(status) then
        seq(|commits|, i requires 0 <= i < |commits| =>
          SyncedCommit(repo.name, commits[i].sha, commits[i].message, commits[i].author.date, commits[i].htmlUrl))
      else []
  }

  /** The commits of the given repositories, repository by repository. */
  function CollectCommits(repos: seq<Repo>, commitsFor: Repo -> CommitFetch): (cs: seq<SyncedCommit>)
    ensures forall c :: c in cs ==> FromOkReply(c, repos, commitsFor)
  {
    if repos == [] then []
    else
      var first := RepoCommits(repos[0], commitsFor(repos[0]));
      var rest := CollectCommits(repos[1..], commitsFor);
      assert forall c :: c in first ==> c.repo == repos[0].name && OkCommitReply(commitsFor(repos[0])) by {
        forall c | c in first ensures c.repo == repos[0].name && OkCommitReply(commitsFor(repos[0])) {
          var k :| 0 <= k < |first| && first[k] == c;
        }
      }
      assert forall i :: 1 <= i < |repos| ==> repos[i] == repos[1..][i - 1];
      first + rest
  }

  /** The commit names one of the repositories whose commit request was
      answered with a success status. */
  predicate FromOkReply(c: SyncedCommit, repos: seq<Repo>, commitsFor: Repo -> CommitFetch) {
    exists i :: 0 <= i < |repos| && c.repo == repos[i].name && OkCommitReply(commitsFor(repos[i]))
  }

  /** A commit request that was answered with a success status. */
  predicate OkCommitReply(fetch: CommitFetch) {
    fetch.Replied? && HttpOk(fetch.status)
  }

  /** Collection distributes over a split of the repository list. */
  lemma {:induction false} CollectCommitsAppend(a: seq<Repo>, b: seq<Repo>, commitsFor: Repo -> CommitFetch)
    ensures CollectCommits(a + b, commitsFor) == CollectCommits(a, commitsFor) + CollectCommits(b, commitsFor)
  {
    if a == [] {
      assert a + b == b;
    } else {
      assert (a + b)[1..] == a[1..] + b;
      CollectCommitsAppend(a[1..], b, commitsFor);
    }
  }

  /** A repository whose commit request fails or throws contributes nothing and
      does not disturb the others. */
  lemma FailedRepoContributesNothing(a: seq<Repo>, r: Repo, b: seq<Repo>, commitsFor: Repo -> CommitFetch)
    requires commitsFor(r).Threw? || !HttpOk(commitsFor(r).status)
    ensures CollectCommits(a + [r] + b, commitsFor) == CollectCommits(a, commitsFor) + CollectCommits(b, commitsFor)
  {
    CollectCommitsAppend(a + [r], b, commitsFor);
    CollectCommitsAppend(a, [r], commitsFor);
    assert CollectCommits([r], commitsFor) == [] by {
      assert [r][1..] == [];
      assert RepoCommits(r, commitsFor(r)) == [];
    }
    assert CollectCommits(a + [r], commitsFor) == CollectCommits(a, commitsFor);
  }

  /** Two repositories, the first answering with commits and the second with a
      404: the run collects exactly the first one's commits. */
  lemma TwoReposOneFailing(r1: Repo, r2: Repo, commitsFor: Repo -> CommitFetch)
    requires commitsFor(r1).Replied? && HttpOk(commitsFor(r1).status)
    requires commitsFor(r2) == Replied(404, [])
    ensures CollectCommits([r1, r2], commitsFor) == RepoCommits(r1, commitsFor(r1))
  {
    FailedRepoContributesNothing([r1], r2, [], commitsFor);
    assert [r1] + [r2] + [] == [r1, r2];
    assert CollectCommits([r1], commitsFor) == RepoCommits(r1, commitsFor(r1)) + CollectCommits([], commitsFor) by {
      assert [r1][1..] == [];
    }
  }

  /** Repository upserts: one per listed repository, except those the store
      rejects (a rejection is logged and skipped). The sync does not supply
      `default_branch`. */
  function SyncRepoWrites(studentId: UserId, repos: seq<Repo>, rejected: set<nat>, now: Time): (ws: seq<RepoWrite>)
    ensures |ws| <= |repos|
    ensures forall i :: 0 <= i < |ws| ==>
              ws[i].defaultBranch.None? && ws[i].githubRepoId !in rejected &&
              ws[i].studentId == studentId && ws[i].syncedAt == now
    ensures forall i :: 0 <= i < |repos| && repos[i].id !in rejected ==> repos[i].id in Keyed.KeysOf(ws, RepoKey)
  {
    if repos == [] then []
    else
      var rest := SyncRepoWrites(studentId, repos[1..], rejected, now);
      assert forall i :: 1 <= i < |repos| ==> repos[i] == repos[1..][i - 1];
      if repos[0].id in rejected then rest
      else [RepoWrite(repos[0].id, studentId, repos[0].name, repos[0].htmlUrl, None, now)] + rest
  }

  /** The upsert for one fetched commit, filed under the given repository row.
      The sync does not supply `metadata`. */
  function SyncUpsert(studentId: UserId, ref: RepoRef, c: SyncedCommit): CommitWrite {
    CommitWrite(studentId, ref, c.sha, c.message, c.date, None)
  }

  /** Commit upserts: one per stored commit whose repository the single-row
      lookup finds, filed under that row; the others are skipped. */
  function SyncCommitWrites(studentId: UserId, commits: seq<SyncedCommit>, repos: map<nat, RepoRow>): (ws: seq<CommitWrite>)
    ensures |ws| <= |commits|
    ensures forall i :: 0 <= i < |ws| ==> ws[i].metadata.None? && ws[i].studentId == studentId
    ensures forall i :: 0 <= i < |commits| && LookupRepo(repos, studentId, commits[i].repo).Some? ==>
              SyncUpsert(studentId, LookupRepo(repos, studentId, commits[i].repo).value, commits[i]) in ws
    ensures forall i :: 0 <= i < |commits| && LookupRepo(repos, studentId, commits[i].repo).Some? ==>
              CommitKey(commits[i].sha) in Keyed.KeysOf(ws, CommitWriteKey)
    ensures forall w :: w in ws ==>
              exists i :: 0 <= i < |commits| && LookupRepo(repos, studentId, commits[i].repo) == Some(w.repositoryId) &&
                          w == SyncUpsert(studentId, w.repositoryId, commits[i])
  {
    if commits == [] then []
    else
      var rest := SyncCommitWrites(studentId, commits[1..], repos);
      assert forall i :: 1 <= i < |commits| ==> commits[i] == commits[1..][i - 1];
      var c := commits[0];
      match LookupRepo(repos, studentId, c.repo)
      case None => rest
      case Some(ref) =>
        var ws := [SyncUpsert(studentId, ref, c)] + rest;
        assert CommitWriteKey(ws[0]) == CommitKey(c.sha);
        ws
  }

  /** Commit upserts depend on the repository table only through the lookup by
      owner and name. */
  lemma {:induction false} SyncCommitWritesSameLookup(studentId: UserId, commits: seq<SyncedCommit>,
                                                      a: map<nat, RepoRow>, b: map<nat, RepoRow>)
    requires Keyed.RelatedTables(SameOwnerAndName, a, b)
    ensures SyncCommitWrites(studentId, commits, a) == SyncCommitWrites(studentId, commits, b)
  {
    if commits != [] {
      LookupRepoSeesNames(a, b, studentId, commits[0].repo);
      SyncCommitWritesSameLookup(studentId, commits[1..], a, b);
    }
  }

  /** The fetched commits that are stored: the first fifty. */
  function StoredCommits(commits: seq<SyncedCommit>): (cs: seq<SyncedCommit>)
    ensures |cs| == Min(StoredCommitLimit, |commits|)
    ensures cs == commits[..|cs|]
  {
    commits[..Min(StoredCommitLimit, |commits|)]
  }

  /** The store after a sync that got past every check. */
  function SyncWrites(studentId: UserId, gh: Replies, rejected: set<nat>, now: Time, s: Store): Store {
    var profiles := if studentId in s.profiles then s.profiles[studentId := MirrorOf(gh.user, now)] else s.profiles;
    var repos := Keyed.UpsertAll(s.repos, SyncRepoWrites(studentId, gh.repos, rejected, now), RepoKey, ApplyRepoWrite);
    var commits := StoredCommits(CollectCommits(CommitRepos(gh.repos), gh.commitsFor));
    var acts := Keyed.UpsertAll(s.activities, SyncCommitWrites(studentId, commits, repos), CommitWriteKey, ApplyCommitWrite);
    s.(profiles := profiles, repos := repos, activities := acts)
  }

  /** One sync run. `rejected` are the repositories whose upsert the store
      refuses and `profileError` the store's error on the profile update, if
      any. Missing parameters fail before any request, a failed GitHub user
      request aborts, and a profile error aborts before anything is written
      (reported by its message only when it is an `Error` instance);
      otherwise the run succeeds and reports every fetched commit, even those
      it did not store. */
  function Sync(req: SyncRequest, gh: Replies, rejected: set<nat>, profileError: Option<StoreFailure>,
                now: Time, s: Store): (r: SyncResult)
    ensures !Truthy(req.studentId) || !Truthy(req.githubToken) ==> r == SyncResult(SyncFailed(MissingParamsMessage), s)
    ensures Truthy(req.studentId) && Truthy(req.githubToken) && !HttpOk(gh.user.status) ==>
              r == SyncResult(SyncFailed(ApiErrorPrefix + gh.user.statusText), s)
    ensures Truthy(req.studentId) && Truthy(req.githubToken) && HttpOk(gh.user.status) && profileError.Some? ==>
              r == SyncResult(SyncFailed(CaughtMessage(profileError.value)), s)
    ensures r.outcome.SyncFailed? ==> r.store == s
    ensures r.outcome.Synced? <==>
              Truthy(req.studentId) && Truthy(req.githubToken) && HttpOk(gh.user.status) && profileError.None?
    ensures r.outcome.Synced? ==>
              r.outcome.username == gh.user.login && r.outcome.reposCount == |gh.repos| &&
              r.outcome.commitsSynced == |CollectCommits(CommitRepos(gh.repos), gh.commitsFor)| &&
              r.outcome.prsCount == gh.prs.totalCount
    ensures r.store == s.(profiles := r.store.profiles, repos := r.store.repos, activities := r.store.activities)
  {
    if !Truthy(req.studentId) || !Truthy(req.githubToken) then
      SyncResult(SyncFailed(MissingParamsMessage), s)
    else if !HttpOk(gh.user.status) then
      SyncResult(SyncFailed(ApiErrorPrefix + gh.user.statusText), s)
    else if profileError.Some? then
      SyncResult(SyncFailed(CaughtMessage(profileError.value)), s)
    else
      var commits := CollectCommits(CommitRepos(gh.repos), gh.commitsFor);
      SyncResult(Synced(gh.user.login, |gh.repos|, |commits|, gh.prs.totalCount),
                 SyncWrites(req.studentId.value, gh, rejected, now, s))
  }

  /** A run adds at most fifty activity rows, and no more than the commits it
      reports. */
  lemma SyncAddsAtMostFiftyRows(req: SyncRequest, gh: Replies, rejected: set<nat>, now: Time, s: Store)
    requires Sync(req, gh, rejected, None, now, s).outcome.Synced?
    ensures var r := Sync(req, gh, rejected, None, now, s);
            |r.store.activities.Keys - s.activities.Keys| <= StoredCommitLimit &&
            |r.store.activities.Keys - s.activities.Keys| <= r.outcome.commitsSynced
  {
    var sid := req.studentId.value;
    var repos := Keyed.UpsertAll(s.repos, SyncRepoWrites(sid, gh.repos, rejected, now), RepoKey, ApplyRepoWrite);
    var commits := StoredCommits(CollectCommits(CommitRepos(gh.repos), gh.commitsFor));
    var ws := SyncCommitWrites(sid, commits, repos);
    Keyed.UpsertAllFrame(s.activities, ws, CommitWriteKey, ApplyCommitWrite);
    Keyed.KeysOfBound(ws, CommitWriteKey);
    var r := Sync(req, gh, rejected, None, now, s);
    assert r.store.activities.Keys - s.activities.Keys <= Keyed.KeysOf(ws, CommitWriteKey);
    Keyed.SubsetCard(r.store.activities.Keys - s.activities.Keys, Keyed.KeysOf(ws, CommitWriteKey));
  }

  /** After a run, every stored commit whose repository the lookup finds in the
      updated repository table has a row under its SHA. */
  lemma SyncStoresFoundCommits(req: SyncRequest, gh: Replies, rejected: set<nat>, now: Time, s: Store, i: nat)
    requires Truthy(req.studentId) && Truthy(req.githubToken) && HttpOk(gh.user.status)
    requires i < |StoredCommits(CollectCommits(CommitRepos(gh.repos), gh.commitsFor))|
    ensures var r := Sync(req, gh, rejected, None, now, s);
            var c := StoredCommits(CollectCommits(CommitRepos(gh.repos), gh.commitsFor))[i];
            LookupRepo(r.store.repos, req.studentId.value, c.repo).Some? ==> CommitKey(c.sha) in r.store.activities
  {
    var r := Sync(req, gh, rejected, None, now, s);
    var sid := req.studentId.value;
    var commits := StoredCommits(CollectCommits(CommitRepos(gh.repos), gh.commitsFor));
    var ws := SyncCommitWrites(sid, commits, r.store.repos);
    assert r.store.activities == Keyed.UpsertAll(s.activities, ws, CommitWriteKey, ApplyCommitWrite);
    Keyed.UpsertAllFrame(s.activities, ws, CommitWriteKey, ApplyCommitWrite);
  }

  /** With more than fifty fetched commits, `commits_synced` exceeds the number
      of commit rows the run can have added. */
  lemma CommitsSyncedCanExceedStored(req: SyncRequest, gh: Replies, rejected: set<nat>, now: Time, s: Store)
    requires Sync(req, gh, rejected, None, now, s).outcome.Synced?
    requires |CollectCommits(CommitRepos(gh.repos), gh.commitsFor)| > StoredCommitLimit
    ensures var r := Sync(req, gh, rejected, None, now, s);
            |r.store.activities.Keys - s.activities.Keys| < r.outcome.commitsSynced
  {
    SyncAddsAtMostFiftyRows(req, gh, rejected, now, s);
  }

  /** Every listed repository the store accepts has a row afterwards, filed under
      its provider id, belonging to the student. */
  lemma SyncStoresRepos(req: SyncRequest, gh: Replies, rejected: set<nat>, now: Time, s: Store, i: nat)
    requires Sync(req, gh, rejected, None, now, s).outcome.Synced?
    requires i < |gh.repos| && gh.repos[i].id !in rejected
    ensures var r := Sync(req, gh, rejected, None, now, s);
            gh.repos[i].id in r.store.repos && r.store.repos[gh.repos[i].id].studentId == req.studentId.value &&
            r.store.repos[gh.repos[i].id].lastSyncedAt == Some(now)
  {
    var sid := req.studentId.value;
    var ws := SyncRepoWrites(sid, gh.repos, rejected, now);
    var id := gh.repos[i].id;
    assert Sync(req, gh, rejected, None, now, s).store.repos == Keyed.UpsertAll(s.repos, ws, RepoKey, ApplyRepoWrite);
    Keyed.UpsertAllLastWins(s.repos, ws, RepoKey, ApplyRepoWrite, id);
    var w := Keyed.LastWrite(ws, RepoKey, id);
    assert w.studentId == sid && w.syncedAt == now;
  }

  /** The repository upserts with their timestamp replaced. */
  function Restamp(ws: seq<RepoWrite>, t: Time): (r: seq<RepoWrite>)
    ensures |r| == |ws| && forall i :: 0 <= i < |ws| ==> r[i] == ws[i].(syncedAt := t)
  {
    if ws == [] then []
    else
      var rest := Restamp(ws[1..], t);
      assert forall i :: 1 <= i < |ws| ==> ws[i] == ws[1..][i - 1];
      [ws[0].(syncedAt := t)] + rest
  }

  /** The repository upserts of a later run differ only in their timestamp. */
  lemma {:induction false} SyncRepoWritesRestamped(studentId: UserId, repos: seq<Repo>, rejected: set<nat>, now: Time, now2: Time)
    ensures SyncRepoWrites(studentId, repos, rejected, now2) == Restamp(SyncRepoWrites(studentId, repos, rejected, now), now2)
  {
    if repos != [] {
      SyncRepoWritesRestamped(studentId, repos[1..], rejected, now, now2);
      var rest := SyncRepoWrites(studentId, repos[1..], rejected, now);
      if repos[0].id !in rejected {
        var w := RepoWrite(repos[0].id, studentId, repos[0].name, repos[0].htmlUrl, None, now);
        assert ([w] + rest)[1..] == rest;
      }
    }
  }

  /** A later run's repository upserts keep the owner and name of every row of
      a table the first run's upserts already settled. */
  lemma ReplayedRepoWritesKeepNames(studentId: UserId, repos: seq<Repo>, rejected: set<nat>, now: Time, now2: Time,
                                    m: map<nat, RepoRow>)
    requires Keyed.UpsertAll(m, SyncRepoWrites(studentId, repos, rejected, now), RepoKey, ApplyRepoWrite) == m
    ensures Keyed.RelatedTables(SameOwnerAndName, m,
              Keyed.UpsertAll(m, SyncRepoWrites(studentId, repos, rejected, now2), RepoKey, ApplyRepoWrite))
  {
    var rws := SyncRepoWrites(studentId, repos, rejected, now);
    var rws2 := SyncRepoWrites(studentId, repos, rejected, now2);
    SyncRepoWritesRestamped(studentId, repos, rejected, now, now2);
    RestampedRepoWrites(rws, rws2);
    Keyed.UpsertAllCongruent(SameOwnerAndName, m, m, rws, rws2, RepoKey, ApplyRepoWrite);
  }

  /** The writes of a sync applied a second time, at any later time, to the
      store the first application produced. */
  lemma SyncWritesReplayed(studentId: UserId, gh: Replies, rejected: set<nat>, now: Time, now2: Time, s: Store)
    ensures var once := SyncWrites(studentId, gh, rejected, now, s);
            var twice := SyncWrites(studentId, gh, rejected, now2, once);
            twice.activities == once.activities && twice.repos.Keys == once.repos.Keys &&
            (now2 == now ==> twice == once)
  {
    var once := SyncWrites(studentId, gh, rejected, now, s);
    var rws := SyncRepoWrites(studentId, gh.repos, rejected, now);
    RepoWritesAbsorbing(rws);
    Keyed.UpsertAllIdempotent(s.repos, rws, RepoKey, ApplyRepoWrite);
    ReplayedRepoWritesKeepNames(studentId, gh.repos, rejected, now, now2, once.repos);
    var repos2 := Keyed.UpsertAll(once.repos, SyncRepoWrites(studentId, gh.repos, rejected, now2), RepoKey, ApplyRepoWrite);
    var commits := StoredCommits(CollectCommits(CommitRepos(gh.repos), gh.commitsFor));
    var cws := SyncCommitWrites(studentId, commits, once.repos);
    SyncCommitWritesSameLookup(studentId, commits, once.repos, repos2);
    CommitWritesAbsorbing(cws);
    Keyed.UpsertAllIdempotent(s.activities, cws, CommitWriteKey, ApplyCommitWrite);
  }

  /** Replaying a sync with the same GitHub replies, at any later time, adds
      and changes no activity row and no repository id: one repository row per
      provider id and one activity row per SHA. At the same time it changes
      nothing at all. */
  lemma SyncIdempotent(req: SyncRequest, gh: Replies, rejected: set<nat>, profileError: Option<StoreFailure>,
                       now: Time, now2: Time, s: Store)
    ensures var once := Sync(req, gh, rejected, profileError, now, s);
            var twice := Sync(req, gh, rejected, profileError, now2, once.store);
            twice.store.activities == once.store.activities &&
            twice.store.repos.Keys == once.store.repos.Keys &&
            (now2 == now ==> twice.store == once.store)
  {
    var once := Sync(req, gh, rejected, profileError, now, s);
    if once.outcome.Synced? {
      var sid := req.studentId.value;
      assert once.store == SyncWrites(sid, gh, rejected, now, s);
      assert Sync(req, gh, rejected, profileError, now2, once.store).store == SyncWrites(sid, gh, rejected, now2, once.store);
      SyncWritesReplayed(sid, gh, rejected, now, now2, s);
    }
  }

  /** A sync keeps the store valid. */
  lemma SyncPreservesValid(req: SyncRequest, gh: Replies, rejected: set<nat>, profileError: Option<StoreFailure>, now: Time, s: Store)
    requires Valid(s)
    ensures Valid(Sync(req, gh, rejected, profileError, now, s).store)
  {
    var r := Sync(req, gh, rejected, profileError, now, s);
    if r.outcome.Synced? {
      var sid := req.studentId.value;
      var commits := StoredCommits(CollectCommits(CommitRepos(gh.repos), gh.commitsFor));
      var cws := SyncCommitWrites(sid, commits, r.store.repos);
      CommitWritesPreserveValid(s, cws);
    }
  }
}

=== FILE: text.dfy ===
/** Decimal rendering of naturals, as JavaScript renders an integer in a
    template literal or through `toString()`. */
module Text {

  predicate IsDigit(c: char) {
    '0' <= c <= '9'
  }

  function DigitChar(d: nat): (c: char)
    requires d < 10
    ensures IsDigit(c)
    ensures c as int - '0' as int == d
  {
    "0123456789"[d]
  }

  function DigitValue(c: char): nat
    requires IsDigit(c)
  {
    c as int - '0' as int
  }

  /** Shortest decimal representation of `n`. */
  function NatToString(n: nat): (s: string)
    ensures |s| >= 1
    ensures forall i :: 0 <= i < |s| ==> IsDigit(s[i])
    ensures |s| > 1 ==> s[0] != '0'
  {
    if n < 10 then [DigitChar(n)] else NatToString(n / 10) + [DigitChar(n % 10)]
  }

  /** Reads a non-empty string of decimal digits back into its value. */
  function ParseNat(s: string): nat
    requires |s| >= 1
    requires forall i :: 0 <= i < |s| ==> IsDigit(s[i])
  {
    if |s| == 1 then DigitValue(s[0])
    else ParseNat(s[..|s| - 1]) * 10 + DigitValue(s[|s| - 1])
  }

  /** Reading back a rendered natural gives the natural. */
  lemma {:induction false} ParseNatToString(n: nat)
    ensures ParseNat(NatToString(n)) == n
  {
    if n >= 10 {
      var s := NatToString(n);
      assert s[..|s| - 1] == NatToString(n / 10);
      ParseNatToString(n / 10);
    }
  }

  /** Distinct naturals render as distinct strings. */
  lemma NatToStringInjective(a: nat, b: nat)
    ensures NatToString(a) == NatToString(b) ==> a == b
  {
    ParseNatToString(a);
    ParseNatToString(b);
  }
}

=== FILE: webhook.dfy ===
/** The GitHub webhook receiver: it finds the registered repository by its
    provider id and records the event as activity rows. A push also stamps the
    repository's `last_synced_at` and, for a repository tied to an assignment,
    requests an analysis of the push's last commit. */
module Webhook {
  import opened Wrappers
  import opened Schema
  import Analysis

  datatype PushCommit = PushCommit(id: string, message: string, timestamp: Time)

  datatype IssueInfo = IssueInfo(number: Option<int>, title: Option<string>)

  /** The payload fields the receiver reads. */
  datatype Payload = Payload(
    repositoryId: Option<nat>,
    commits: Option<seq<PushCommit>>,
    action: Option<string>,
    number: Option<int>,
    pullRequestTitle: Option<string>,
    issue: Option<IssueInfo>)

  /** The answer: "Repository not registered" (200), `{success: true}` (200), or
      the error of a failed analysis request (500). */
  datatype WebhookReply = NotRegistered | Acknowledged | WebhookFailed(message: string)

  function ReplyStatus(reply: WebhookReply): (status: nat)
    ensures status == 500 <==> reply.WebhookFailed?
    ensures status != 500 ==> status == 200
  {
    if reply.WebhookFailed? then 500 else 200
  }

  /** The reply, the store afterwards, and the analysis request the receiver
      sends on (if any). */
  datatype WebhookResult = WebhookResult(reply: WebhookReply, store: Store, trigger: Option<Analysis.AnalyzeRequest>)

  function CommitActivity(studentId: UserId, repo: RepoRef, c: PushCommit): (a: Activity)
    ensures KeyMatches(CommitKey(c.id), a)
  {
    Activity(studentId, Some(repo), Commit, Some(c.id), None, Some(c.message), c.timestamp, NoMetadata)
  }

  function PushKeys(commits: seq<PushCommit>): set<ActivityKey> {
    set i | 0 <= i < |commits| :: CommitKey(commits[i].id)
  }

  lemma PushKeysCons(commits: seq<PushCommit>)
    requires commits != []
    ensures PushKeys(commits) == {CommitKey(commits[0].id)} + PushKeys(commits[1..])
  {
    forall x | x in PushKeys(commits) ensures x in {CommitKey(commits[0].id)} + PushKeys(commits[1..]) {
      var i :| 0 <= i < |commits| && x == CommitKey(commits[i].id);
      if i > 0 { assert commits[i] == commits[1..][i - 1]; }
    }
    forall x | x in PushKeys(commits[1..]) ensures x in PushKeys(commits) {
      var i :| 0 <= i < |commits[1..]| && x == CommitKey(commits[1..][i].id);
      assert commits[1..][i] == commits[i + 1];
    }
  }

  /** The push's commits, inserted one by one in payload order. The unique index
      on `commit_sha` rejects a SHA that is already stored and the receiver
      ignores the rejection: rows already stored are kept as they are. */
  function InsertCommits(acts: map<ActivityKey, Activity>, studentId: UserId, repo: RepoRef,
                         commits: seq<PushCommit>): (r: map<ActivityKey, Activity>)
    ensures r.Keys == acts.Keys + PushKeys(commits)
    ensures forall k :: k in acts ==> r[k] == acts[k]
    decreases |commits|
  {
    if commits == [] then acts
    else
      var k := CommitKey(commits[0].id);
      var acts' := if k in acts then acts else acts[k := CommitActivity(studentId, repo, commits[0])];
      PushKeysCons(commits);
      InsertCommits(acts', studentId, repo, commits[1..])
  }

  /** A SHA not stored before holds the push's first commit with that SHA. */
  lemma {:induction false} InsertCommitsFirstWins(acts: map<ActivityKey, Activity>, studentId: UserId, repo: RepoRef,
                                                 commits: seq<PushCommit>, i: nat)
    requires i < |commits| && CommitKey(commits[i].id) !in acts
    requires forall j :: 0 <= j < i ==> commits[j].id != commits[i].id
    ensures InsertCommits(acts, studentId, repo, commits)[CommitKey(commits[i].id)] ==
            CommitActivity(studentId, repo, commits[i])
    decreases |commits|
  {
    var k := CommitKey(commits[0].id);
    var acts' := if k in acts then acts else acts[k := CommitActivity(studentId, repo, commits[0])];
    if i > 0 {
      assert commits[1..][i - 1] == commits[i];
      forall j | 0 <= j < i - 1 ensures commits[1..][j].id != commits[1..][i - 1].id {
        assert commits[1..][j] == commits[j + 1];
      }
      InsertCommitsFirstWins(acts', studentId, repo, commits[1..], i - 1);
    }
  }

  /** Inserting a push whose commits are all stored already changes nothing. */
  lemma {:induction false} InsertCommitsPresent(acts: map<ActivityKey, Activity>, studentId: UserId, repo: RepoRef,
                                               commits: seq<PushCommit>)
    requires PushKeys(commits) <= acts.Keys
    ensures InsertCommits(acts, studentId, repo, commits) == acts
    decreases |commits|
  {
    if commits != [] {
      PushKeysCons(commits);
      InsertCommitsPresent(acts, studentId, repo, commits[1..]);
    }
  }

  /** A push of commits with distinct, not yet stored SHAs adds exactly one row
      per commit. */
  lemma {:induction false} InsertCommitsCount(acts: map<ActivityKey, Activity>, studentId: UserId, repo: RepoRef,
                                             commits: seq<PushCommit>)
    requires forall i :: 0 <= i < |commits| ==> CommitKey(commits[i].id) !in acts
    requires forall i, j :: 0 <= i < j < |commits| ==> commits[i].id != commits[j].id
    ensures |InsertCommits(acts, studentId, repo, commits)| == |acts| + |commits|
    decreases |commits|
  {
    if commits != [] {
      var k := CommitKey(commits[0].id);
      var acts' := acts[k := CommitActivity(studentId, repo, commits[0])];
      forall i | 0 <= i < |commits[1..]| ensures CommitKey(commits[1..][i].id) !in acts' {
        assert commits[1..][i] == commits[i + 1];
      }
      InsertCommitsCount(acts', studentId, repo, commits[1..]);
    }
  }

  /** The row a pull_request or issues delivery records: no dedup column,
      stamped with the time of receipt. */
  function EventActivity(studentId: UserId, repo: RepoRef, kind: ActivityType, now: Time, meta: Metadata): (a: Activity)
    ensures a.studentId == studentId && a.repositoryId == Some(repo) && a.kind == kind
    ensures a.occurredAt == now && a.metadata == meta
    ensures KeyMatches(RowKey(0), a)
  {
    Activity(studentId, Some(repo), kind, None, None, None, now, meta)
  }

  /** Plain insert of a row that has neither dedup column: it takes the next
      row number, and in a valid store that adds exactly one row and keeps every
      other row. */
  function InsertUnkeyed(s: Store, a: Activity): (r: Store)
    ensures r.nextRow == s.nextRow + 1
    ensures RowKey(s.nextRow) in r.activities && r.activities[RowKey(s.nextRow)] == a
    ensures r == s.(activities := r.activities, nextRow := r.nextRow)
    ensures Valid(s) ==>
              |r.activities| == |s.activities| + 1 &&
              forall k :: k in s.activities ==> k in r.activities && r.activities[k] == s.activities[k]
    ensures Valid(s) && a.commitSha.None? && a.eventId.None? ==> Valid(r)
  {
    assert Valid(s) ==> RowKey(s.nextRow) !in s.activities by {
      if Valid(s) { RowKeyFresh(s); }
    }
    s.(activities := s.activities[RowKey(s.nextRow) := a], nextRow := s.nextRow + 1)
  }

  /** The metadata a pull_request or issues delivery records. */
  function EventMeta(event: Option<string>, payload: Payload): Metadata {
    if event == Some("issues") then
      var issue := payload.issue.GetOr(IssueInfo(None, None));
      IssueMeta(payload.action, issue.number, issue.title)
    else PullRequestMeta(payload.action, payload.number, payload.pullRequestTitle)
  }

  /** The analysis request a push sends on, if any. */
  function PushTrigger(repo: RepoRow, ref: RepoRef, commits: seq<PushCommit>): Option<Analysis.AnalyzeRequest> {
    if Truthy(repo.assignmentId) && |commits| > 0
    then Some(Analysis.AnalyzeRequest(ref, commits[|commits| - 1].id, repo.assignmentId))
    else None
  }

  /** One delivery. The signature header is accepted and never checked.
      `callError` is the network error, if any, of the analysis request a push
      sends on: it is awaited, so its failure answers 500 after the writes. */
  function Handle(event: Option<string>, signature: Option<string>, payload: Payload, callError: Option<string>,
                  now: Time, s: Store): (r: WebhookResult)
    ensures r.reply == NotRegistered <==> payload.repositoryId.None? || payload.repositoryId.value !in s.repos
    ensures r.reply == NotRegistered ==> r.store == s && r.trigger.None?
    ensures event !in {Some("push"), Some("pull_request"), Some("issues")} ==> r.store == s && r.trigger.None?
    ensures r.store.analyses == s.analyses && r.store.users == s.users && r.store.assignments == s.assignments
    ensures r.trigger.Some? <==>
              r.reply != NotRegistered && event == Some("push") &&
              Truthy(s.repos[payload.repositoryId.value].assignmentId) && |payload.commits.GetOr([])| > 0
    ensures r.trigger.Some? ==>
              var commits := payload.commits.GetOr([]);
              r.trigger.value == Analysis.AnalyzeRequest(RepoRef(payload.repositoryId.value),
                                                         commits[|commits| - 1].id,
                                                         s.repos[payload.repositoryId.value].assignmentId)
    ensures r.reply.WebhookFailed? <==> r.trigger.Some? && callError.Some?
    ensures r.reply.WebhookFailed? ==> r.reply.message == callError.value
    ensures r.reply != NotRegistered && event == Some("push") ==>
              var gid := payload.repositoryId.value;
              r.store.repos == s.repos[gid := s.repos[gid].(lastSyncedAt := Some(now))]
    ensures r.reply != NotRegistered && event != Some("push") ==> r.store.repos == s.repos
    ensures r.reply != NotRegistered && event == Some("push") ==>
              var gid := payload.repositoryId.value;
              r.store.activities == InsertCommits(s.activities, s.repos[gid].studentId, RepoRef(gid), payload.commits.GetOr([]))
  {
    if payload.repositoryId.None? || payload.repositoryId.value !in s.repos then
      WebhookResult(NotRegistered, s, None)
    else
      var gid := payload.repositoryId.value;
      var repo := s.repos[gid];
      var ref := RepoRef(gid);
      if event == Some("push") then
        var commits := payload.commits.GetOr([]);
        var acts := InsertCommits(s.activities, repo.studentId, ref, commits);
        var repos := s.repos[gid := repo.(lastSyncedAt := Some(now))];
        var trigger := PushTrigger(repo, ref, commits);
        var reply := if trigger.Some? && callError.Some? then WebhookFailed(callError.value) else Acknowledged;
        WebhookResult(reply, s.(activities := acts, repos := repos), trigger)
      else if event == Some("pull_request") || event == Some("issues") then
        var kind := if event == Some("issues") then Issue else PullRequest;
        WebhookResult(Acknowledged, InsertUnkeyed(s, EventActivity(repo.studentId, ref, kind, now, EventMeta(event, payload))), None)
      else
        WebhookResult(Acknowledged, s, None)
  }

  /** Every delivery keeps the store valid. */
  lemma HandlePreservesValid(event: Option<string>, signature: Option<string>, payload: Payload, callError: Option<string>,
                             now: Time, s: Store)
    requires Valid(s)
    ensures Valid(Handle(event, signature, payload, callError, now, s).store)
  {
    var r := Handle(event, signature, payload, callError, now, s);
    if event == Some("push") && r.reply != NotRegistered {
      forall k | k in r.store.activities
        ensures ActivityRowOk(r.store.nextRow, k, r.store.activities[k])
      {
        if k !in s.activities {
          var commits := payload.commits.GetOr([]);
          var i :| 0 <= i < |commits| && k == CommitKey(commits[i].id);
          var i0 := FirstOccurrence(commits, i);
          var gid := payload.repositoryId.value;
          InsertCommitsFirstWins(s.activities, s.repos[gid].studentId, RepoRef(gid), commits, i0);
        }
      }
    }
  }

  /** The first commit carrying the same id as commit `i`. */
  lemma {:induction false} FirstOccurrence(commits: seq<PushCommit>, i: nat) returns (i0: nat)
    requires i < |commits|
    ensures i0 <= i && commits[i0].id == commits[i].id
    ensures forall j :: 0 <= j < i0 ==> commits[j].id != commits[i].id
  {
    i0 := i;
    while exists j :: 0 <= j < i0 && commits[j].id == commits[i].id
      invariant i0 <= i && commits[i0].id == commits[i].id
      decreases i0
    {
      var j :| 0 <= j < i0 && commits[j].id == commits[i].id;
      i0 := j;
    }
  }

  /** A push records each commit: after it, every SHA of the push has a row, a
      SHA stored before keeps its old row, and a new SHA holds the push's first
      commit with that SHA. */
  lemma PushRecordsCommits(signature: Option<string>, payload: Payload, callError: Option<string>, now: Time, s: Store, i: nat)
    requires payload.repositoryId.Some? && payload.repositoryId.value in s.repos
    requires i < |payload.commits.GetOr([])|
    ensures var commits := payload.commits.GetOr([]);
            var r := Handle(Some("push"), signature, payload, callError, now, s);
            var k := CommitKey(commits[i].id);
            k in r.store.activities &&
            (k in s.activities ==> r.store.activities[k] == s.activities[k]) &&
            (k !in s.activities ==>
               exists i0 :: 0 <= i0 <= i && commits[i0].id == commits[i].id &&
                 r.store.activities[k] == CommitActivity(s.repos[payload.repositoryId.value].studentId,
                                                         RepoRef(payload.repositoryId.value), commits[i0]))
  {
    var commits := payload.commits.GetOr([]);
    var i0 := FirstOccurrence(commits, i);
    assert CommitKey(commits[i].id) in PushKeys(commits);
    var gid := payload.repositoryId.value;
    if CommitKey(commits[i].id) !in s.activities {
      InsertCommitsFirstWins(s.activities, s.repos[gid].studentId, RepoRef(gid), commits, i0);
    }
  }

  /** Delivering the same push again, at any later time, stores no further
      commit rows and registers no repository; it only stamps `last_synced_at`
      again and requests the same analysis again. Redelivered at the same
      instant, it leaves the store exactly as it was. */
  lemma PushReplayAddsNoCommits(signature: Option<string>, payload: Payload, callError: Option<string>,
                                now: Time, now2: Time, s: Store)
    requires payload.repositoryId.Some? && payload.repositoryId.value in s.repos
    ensures var once := Handle(Some("push"), signature, payload, callError, now, s);
            var twice := Handle(Some("push"), signature, payload, callError, now2, once.store);
            twice.store.activities == once.store.activities &&
            twice.store.repos.Keys == once.store.repos.Keys &&
            twice.trigger == once.trigger &&
            (now2 == now ==> twice.store == once.store)
  {
    var once := Handle(Some("push"), signature, payload, callError, now, s);
    var gid := payload.repositoryId.value;
    InsertCommitsPresent(once.store.activities, s.repos[gid].studentId, RepoRef(gid), payload.commits.GetOr([]));
  }

  /** A pull_request or issues delivery adds exactly one row and keeps every
      other: the new row is the repository owner's, points at the repository,
      has the matching kind, the payload's action, number and title, and the
      time of receipt. Delivering it again adds another. */
  lemma EventAddsOneRow(event: Option<string>, signature: Option<string>, payload: Payload, callError: Option<string>,
                        now: Time, s: Store)
    requires Valid(s)
    requires event == Some("pull_request") || event == Some("issues")
    requires payload.repositoryId.Some? && payload.repositoryId.value in s.repos
    ensures var r := Handle(event, signature, payload, callError, now, s);
            var gid := payload.repositoryId.value;
            var row := r.store.activities[RowKey(s.nextRow)];
            |r.store.activities| == |s.activities| + 1 &&
            (forall k :: k in s.activities ==> k in r.store.activities && r.store.activities[k] == s.activities[k]) &&
            row.studentId == s.repos[gid].studentId && row.repositoryId == Some(RepoRef(gid)) &&
            row.kind == (if event == Some("issues") then Issue else PullRequest) &&
            row.occurredAt == now &&
            row.metadata == (if event == Some("issues")
                             then IssueMeta(payload.action, payload.issue.GetOr(IssueInfo(None, None)).number,
                                            payload.issue.GetOr(IssueInfo(None, None)).title)
                             else PullRequestMeta(payload.action, payload.number, payload.pullRequestTitle))
    ensures var r := Handle(event, signature, payload, callError, now, s);
            |Handle(event, signature, payload, callError, now, r.store).store.activities| == |s.activities| + 2
  {
    var r := Handle(event, signature, payload, callError, now, s);
    HandlePreservesValid(event, signature, payload, callError, now, s);
  }

  /** The signature header has no influence on the outcome. */
  lemma SignatureIgnored(event: Option<string>, sig1: Option<string>, sig2: Option<string>, payload: Payload,
                         callError: Option<string>, now: Time, s: Store)
    ensures Handle(event, sig1, payload, callError, now, s) == Handle(event, sig2, payload, callError, now, s)
  {
  }
}

=== FILE: wrappers.dfy ===
/** Optional values, standing in for the `null`/`undefined` a JSON field or a
    single-row query may produce. */
module Wrappers {

  datatype Option<+T> = None | Some(value: T) {

    /** The value, or `default` when absent (JavaScript's `x || default`
        when the only falsy value of interest is a missing one). */
    function GetOr(default: T): T {
      match this
      case Some(v) => v
      case None => default
    }
  }

  /** JavaScript truthiness of an optional string: present and non-empty. */
  predicate Truthy(s: Option<string>) {
    s.Some? && s.value != ""
  }
}
